=== FILE: README.md ===
# Subscription service: tokens, subscriptions and their supporting rules

A model in Dafny of the core of a Spring Boot subscription management
service. It covers three parts:

- **Auth tokens.** Logging in looks a user up by name and checks the
  password. It then issues an opaque token under a single-active-token
  policy: every ACTIVE token of the user is switched to INACTIVE before the
  new one is saved. Tokens are checked by the request interceptor and by a
  refresh operation. An older variant of the token service is modelled too:
  it matches user names exactly and only checks that the token and its
  owner exist.
- **Subscription lifecycle.** The operations are create, partial update,
  cancel, and two queries. They run over a subscription table whose
  invariant is "at most one ACTIVE subscription per (user, service)".
- **Supporting logic.** This covers:
  - the `yyyyMMdd` date codec (`DateUtils` together with `java.time`'s
    parser and printer);
  - the case-insensitive enum look-ups and their JSON forms;
  - the model/entity mappers;
  - the Bean Validation constraints on the user and service models, read as
    character-class predicates;
  - the `Bearer ` header gate.

The model is functional. Each table is a sequence of records plus the next
value of its IDENTITY column. Every operation is a pure function that
returns either the new table together with the answer, or the exception the
Java code throws. A failure returns no table, so a failing call changes
nothing.

The clock and the UUID generator are parameters:

- `today` stands for `LocalDate.now()`.
- `now` stands for `LocalDateTime.now()`.
- `uuid` stands for the new token string.

Java's `int` range, `Integer.parseInt`, `String.valueOf(int)`,
`equalsIgnoreCase` and `String.length()` (UTF-16 code units) are written
out explicitly.

Modules follow the source's packages:

- `Errors`, `Wrappers`, `Chars` and `Decimal` hold exceptions, results,
  characters and integers.
- `DateUtils` is the date codec.
- `StatusEnum` and `SubscriptionStatusEnum` are the two enums.
- `Entities` and `Models` are the data shapes.
- `Repositories` holds the Spring Data queries, read as filters.
- `UsersMapper`, `ServiceMapper`, `SubscriptionMapper` and
  `AuthTokenMapper` are the mappers.
- `Validation` holds the model constraints.
- `AuthTokenServiceImpl` and `LegacyAuthTokenService` are the two token
  services.
- `AuthTokenInterceptor` is the request gate.
- `SubscriptionServiceImpl` is the subscription lifecycle.

## Behaviour of the code worth knowing

- **Account status is never checked.** Neither token service reads the
  user's status, so an inactive account can log in and use its tokens.
- **Expiry is day-granular and never written back.** The token's date
  columns are `LocalDate`s. So the issue time and the expiry are stored as
  calendar days, and a check accepts the token until the end of its expiry
  day. A check never flips an expired token to INACTIVE.
  `AuthTokenMapper.ToEntity` and `AuthTokenServiceImpl.IssuedTokenLifetime`
  state this. The mapper hands `LocalDateTime`s to those `LocalDate`
  setters. The model reads those values as their calendar day, which is what
  the older service does explicitly with `LocalDate.from`.
- **Create parses the service id first.** An INACTIVE or null-status create
  with a non-numeric or null service id fails with `NumberFormatException`,
  not with the status error.
- **User names are case-insensitive only in the newer service.** The older
  `servicesImpl/AuthTokenService` matches them exactly
  (`LegacyAuthTokenService.LoginNameCase`).
- **Cancel has no ownership check.** It only checks that the user exists
  and that the subscription exists (`CancelIgnoresOwnership`).
- **Update does not re-check uniqueness.** An update can leave two ACTIVE
  rows for one (user, service) (`UpdateCanBreakUniqueActive`).
- **There is no renew operation.** There is also no end-after-start date
  check.
- **The entity has no `status` field.** `SubscriptionMapper` reads and
  writes a `status` (`SubscriptionStatus`) field that the `Subscription`
  entity does not declare. The model's record has that field.
- **An empty result is an error.** `getSubscriptionDetails` reports a user
  with no subscriptions as not found.
- **The date parser clamps instead of rejecting.** The `yyyyMMdd` formatter
  uses `java.time`'s SMART resolver. A day past the end of its month (up to
  31) is moved back to the last day of the month instead of being rejected
  (`DateUtils.SmartResolverClampsDay`). The round-trip lemmas name the
  strings for which this happens.

## Model

Source paths are relative to the repository root.

| member | source | states |
|---|---|---|
| Chars.UpperFold | src/main/java/com/sms/SubscriptionService/enums/Status.java:25 | case folding under `equalsIgnoreCase`: lower-case ASCII letters meet their upper-case forms, upper-case ones are fixed |
| Chars.SameIgnoringCase | src/main/java/com/sms/SubscriptionService/enums/Status.java:25 | `equalsIgnoreCase` against a constant name: equal lengths and equal characters after folding; equal strings always match |
| Chars.SameIgnoringCaseEquivalence | src/main/java/com/sms/SubscriptionService/enums/SubscriptionStatus.java:27 | comparing ignoring case is reflexive, symmetric and transitive |
| Chars.Utf16Length | src/main/java/com/sms/SubscriptionService/model/UsersModel.java:23 | the length `@Size` measures lies between the number of characters and twice it, and equals it for Basic Multilingual Plane text |
| Decimal.ParseInt | src/main/java/com/sms/SubscriptionService/mapper/SubscriptionMapper.java:19-20 | `Integer.parseInt` succeeds exactly for an optional sign followed by at least one ASCII digit whose signed value is in the 32-bit range, and then returns that signed value; every other text fails with `NumberFormatException` |
| Decimal.ParseIntExamples | src/main/java/com/sms/SubscriptionService/mapper/SubscriptionMapper.java:19-20 | "12a", "-" and "" fail; "-5", "+7" and "007" read as -5, 7 and 7 |
| Decimal.ParseNullableInt | src/main/java/com/sms/SubscriptionService/service/servicesImpl/SubscriptionServiceImpl.java:47 | a null string given to `Integer.valueOf` fails with `NumberFormatException`; any other is parsed as by `parseInt` |
| Decimal.IntToString | src/main/java/com/sms/SubscriptionService/mapper/SubscriptionMapper.java:38-40 | `String.valueOf(int)` prints canonical text (no plus sign, no leading zero, no "-0"), with a minus sign exactly for negative values, and `Integer.parseInt` reads every `int` back from it |
| Decimal.IntToStringOfParseInt | src/main/java/com/sms/SubscriptionService/mapper/SubscriptionMapper.java:19-20 | printing a parsed id gives the text back exactly when that text was canonical |
| DateUtils.DaysInMonth | src/main/java/com/sms/SubscriptionService/utils/DateUtils.java:17 | month lengths are 28 to 31 days, with 29 exactly for February of a Gregorian leap year |
| DateUtils.AtStartOfDay | src/main/java/com/sms/SubscriptionService/utils/DateUtils.java:25 | `atStartOfDay` keeps the day and sets the time to midnight |
| DateUtils.LocalDateTimeToLocalDate | src/main/java/com/sms/SubscriptionService/utils/DateUtils.java:32-34 | `localDateTimeToLocalDate` keeps the calendar day and drops the time |
| DateUtils.NextDay | src/main/java/com/sms/SubscriptionService/mapper/AuthTokenMapper.java:22 | the next day is later, and it is in the same year or is 1 January of the next one |
| DateUtils.NextDayIsSuccessor | src/main/java/com/sms/SubscriptionService/mapper/AuthTokenMapper.java:22 | no day lies strictly between a day and the next one |
| DateUtils.PlusSeconds | src/main/java/com/sms/SubscriptionService/mapper/AuthTokenMapper.java:22 | adding seconds never moves the day back; within the day it adds to the time; less than a day that crosses midnight lands on the next day |
| DateUtils.PlusMinutes | src/main/java/com/sms/SubscriptionService/mapper/AuthTokenMapper.java:22 | adding less than a day of minutes keeps the day exactly when it does not cross midnight, and otherwise gives the next day |
| DateUtils.ParseYyyyMmDd | src/main/java/com/sms/SubscriptionService/utils/DateUtils.java:12-17 | accepted exactly when the text is eight ASCII digits with a year of at least 1, a month of 1-12 and a day of 1-31; the result has that year and month, and that day unless it overruns the month, in which case it is clamped |
| DateUtils.ConvertToLocalDate | src/main/java/com/sms/SubscriptionService/utils/DateUtils.java:15-21 | a parse failure becomes `InvalidDateFormatException` with its message, a null string a `NullPointerException`, and a parsed date is returned as is |
| DateUtils.ConvertToLocalDateTime | src/main/java/com/sms/SubscriptionService/utils/DateUtils.java:23-26 | succeeds exactly when `convertToLocalDate` does, with midnight of that day, and otherwise fails with the same exception |
| DateUtils.YearOfEra | src/main/java/com/sms/SubscriptionService/utils/DateUtils.java:28-30 | the `yyyy` field prints a positive year as itself |
| DateUtils.LocalDateToString | src/main/java/com/sms/SubscriptionService/utils/DateUtils.java:28-30 | for years 1 to 9999 the printed date is canonical eight-digit text that parses back to the same date; a year-of-era past 9999 prints a '+'-signed year, which the model's parser (leaving '+'-signed years out) does not read |
| DateUtils.CanonicalDateReprints | src/main/java/com/sms/SubscriptionService/utils/DateUtils.java:15-30 | a canonical date string is read without clamping and printed back unchanged |
| DateUtils.PrintedFields | src/main/java/com/sms/SubscriptionService/utils/DateUtils.java:12-13 | the fixed-width year, month and day fields of `yyyyMMdd` are eight digits that read back to their values |
| DateUtils.LocalDateToStringOfParse | src/main/java/com/sms/SubscriptionService/utils/DateUtils.java:15-30 | printing a parsed date gives the text back exactly when the text was canonical (not clamped) |
| DateUtils.DateOfConvertedDateTime | src/main/java/com/sms/SubscriptionService/utils/DateUtils.java:23-34 | the day of `convertToLocalDateTime(s)` is `convertToLocalDate(s)` |
| DateUtils.SmartResolverClampsDay | src/main/java/com/sms/SubscriptionService/utils/DateUtils.java:12-17 | 30 February reads as 28 (or 29 in a leap year) February and 31 April as 30 April, instead of being refused |
| DateUtils.PatternRejects | src/main/java/com/sms/SubscriptionService/utils/DateUtils.java:15-20 | day 32, year 0 and dashed dates are refused with the format error |
| DateUtils.DateFieldValues | src/main/java/com/sms/SubscriptionService/utils/DateUtils.java:12 | the year, month and day fields of eight digits are read positionally |
| StatusEnum.GetDbStatus | src/main/java/com/sms/SubscriptionService/enums/Status.java:7-20 | the JSON form of a status is its constant name up to case |
| StatusEnum.StatusFromString | src/main/java/com/sms/SubscriptionService/enums/Status.java:22-30 | succeeds exactly when the text equals some constant's name ignoring case, returns such a constant, and otherwise throws `IllegalArgumentException` naming the text |
| StatusEnum.StatusJsonRoundTrip | src/main/java/com/sms/SubscriptionService/enums/Status.java:7-30 | `fromString(getDbStatus(s)) == s` for both constants |
| StatusEnum.StatusTextRoundTrip | src/main/java/com/sms/SubscriptionService/enums/Status.java:22-30 | `fromString(String.valueOf(s))` gives s back, and fails for a null status |
| StatusEnum.StatusText | src/main/java/com/sms/SubscriptionService/mapper/SubscriptionMapper.java:30 | `String.valueOf` of a status is its constant's name, and is "null" exactly for a null status |
| StatusEnum.GetDbStatusInjective | src/main/java/com/sms/SubscriptionService/enums/Status.java:7-8 | the two JSON names differ |
| StatusEnum.StatusFromStringIgnoresCase | src/main/java/com/sms/SubscriptionService/enums/Status.java:23-29 | "active", "inActive" and a dotless-i spelling are accepted; an unrelated word is refused |
| SubscriptionStatusEnum.GetStatus | src/main/java/com/sms/SubscriptionService/enums/SubscriptionStatus.java:7-22 | the JSON form of each constant is its own name |
| SubscriptionStatusEnum.SubscriptionStatusFromString | src/main/java/com/sms/SubscriptionService/enums/SubscriptionStatus.java:24-32 | succeeds exactly when the text equals some constant's name ignoring case, returns such a constant, and otherwise throws `IllegalArgumentException` naming the text |
| SubscriptionStatusEnum.FirstMatch | src/main/java/com/sms/SubscriptionService/enums/SubscriptionStatus.java:26-31 | the search loop returns a matching constant from the list, or fails only when none of them matches |
| SubscriptionStatusEnum.IndexOf | src/main/java/com/sms/SubscriptionService/enums/SubscriptionStatus.java:6-10 | every constant sits in the declaration list |
| SubscriptionStatusEnum.SubscriptionStatusConstants | src/main/java/com/sms/SubscriptionService/enums/SubscriptionStatus.java:6-10 | there are exactly four constants, with distinct names |
| SubscriptionStatusEnum.SubscriptionStatusJsonRoundTrip | src/main/java/com/sms/SubscriptionService/enums/SubscriptionStatus.java:19-32 | `fromString(getStatus(s)) == s` for every constant |
| SubscriptionStatusEnum.SubscriptionStatusTextRoundTrip | src/main/java/com/sms/SubscriptionService/enums/SubscriptionStatus.java:24-32 | `fromString(String.valueOf(s))` gives s back, and fails for a null status |
| SubscriptionStatusEnum.SubscriptionStatusText | src/main/java/com/sms/SubscriptionService/mapper/SubscriptionMapper.java:29 | `String.valueOf` of a lifecycle status is its constant's name, and is "null" exactly for a null status |
| Repositories.Filter | src/main/java/com/sms/SubscriptionService/repository/SubscriptionRepository.java:12-13 | a derived query returns exactly the rows satisfying its condition, and nothing when no row does |
| Repositories.FilterAtMostOne | src/main/java/com/sms/SubscriptionService/repository/AuthTokenRepository.java:16 | a condition at most one row meets yields at most one row |
| Repositories.SingleResult | src/main/java/com/sms/SubscriptionService/repository/AuthTokenRepository.java:16 | an `Optional` query is empty for no row, the row for one, and fails with `IncorrectResultSizeDataAccessException` for more |
| Repositories.FindTokensByUserIdAndDbstatus | src/main/java/com/sms/SubscriptionService/repository/AuthTokenRepository.java:13 | exactly the tokens of that user in that status |
| Repositories.FindTokenByToken | src/main/java/com/sms/SubscriptionService/repository/AuthTokenRepository.java:16 | finds a row carrying the string, is empty exactly when none does, and cannot fail when token strings are distinct |
| Repositories.FindUserById | src/main/java/com/sms/SubscriptionService/repository/UserRepository.java:8 | finds a user with that id, empty exactly when none has it |
| Repositories.ExistsUserById | src/main/java/com/sms/SubscriptionService/service/servicesImpl/SubscriptionServiceImpl.java:173 | true exactly when some user has that id |
| Repositories.FindUserByUserName | src/main/java/com/sms/SubscriptionService/repository/UserRepository.java:9 | finds a user with exactly that name, empty exactly when none has it |
| Repositories.FindUserByUserNameIgnoreCase | src/main/java/com/sms/SubscriptionService/service/servicesImpl/AuthTokenServiceImpl.java:43 | finds a user whose name matches ignoring case, empty exactly when none does |
| Repositories.FindSubscriptionsByUserIdAndDbstatus | src/main/java/com/sms/SubscriptionService/repository/SubscriptionRepository.java:12 | exactly the user's subscriptions in that status; a null status matches none |
| Repositories.FindSubscriptionsByUserId | src/main/java/com/sms/SubscriptionService/repository/SubscriptionRepository.java:13 | exactly the user's subscriptions |
| Repositories.FindSubscriptionIndex | src/main/java/com/sms/SubscriptionService/service/servicesImpl/SubscriptionServiceImpl.java:126 | the first row with that primary key, absent exactly when no row has it |
| Repositories.ExistsByUserIdAndServiceIdAndDbstatus | src/main/java/com/sms/SubscriptionService/service/servicesImpl/SubscriptionServiceImpl.java:51-54 | the derived exists query is true exactly when some row has that user, service and status |
| UsersMapper.ToEntity | src/main/java/com/sms/SubscriptionService/mapper/UsersMapper.java:11-21 | the entity carries the five copied fields, which `toModel` gives back, with id 0 and null audit fields |
| UsersMapper.ToModel | src/main/java/com/sms/SubscriptionService/mapper/UsersMapper.java:23-34 | keeps the id; the audit fields are not copied |
| UsersMapper.EntityRoundTrip | src/main/java/com/sms/SubscriptionService/mapper/UsersMapper.java:11-34 | entity to model to entity keeps every copied field and loses the id and the audit fields |
| ServiceMapper.ToEntity | src/main/java/com/sms/SubscriptionService/mapper/ServiceMapper.java:11-20 | the entity carries the four copied fields, which `toModel` gives back, with id 0 and null audit fields |
| ServiceMapper.ToModel | src/main/java/com/sms/SubscriptionService/mapper/ServiceMapper.java:22-32 | keeps the id; the audit fields are not copied |
| ServiceMapper.EntityRoundTrip | src/main/java/com/sms/SubscriptionService/mapper/ServiceMapper.java:11-32 | entity to model to entity keeps every copied field and loses the id and the audit fields |
| SubscriptionMapper.ToEntity | src/main/java/com/sms/SubscriptionService/mapper/SubscriptionMapper.java:16-33 | succeeds exactly when both ids parse, both dates convert and both enums are present; ids parsed, dates at midnight, id 0; the first failure in source order is thrown: user id, service id, start date, end date, then the look-up error for a null status or a null dbstatus |
| SubscriptionMapper.EnumsOf | src/main/java/com/sms/SubscriptionService/mapper/SubscriptionMapper.java:29-30 | both enums survive `fromString(String.valueOf(...))`; a null status fails first, with the look-up's message for "null", then a null dbstatus |
| SubscriptionMapper.StatusTextRoundTripBoth | src/main/java/com/sms/SubscriptionService/mapper/SubscriptionMapper.java:29-30 | the enums survive `String.valueOf` and `fromString`, and a null one fails |
| SubscriptionMapper.ToModel | src/main/java/com/sms/SubscriptionService/mapper/SubscriptionMapper.java:35-53 | every field but the audit ones is present; each printed id is canonical and parses back to the `int`; each printed date of years 1 to 9999 is canonical and converts back to the entity's day; the enums are copied, the audit fields are not |
| SubscriptionMapper.EntityRoundTrip | src/main/java/com/sms/SubscriptionService/mapper/SubscriptionMapper.java:16-53 | entity to model to entity keeps the ids, days and enums; the time becomes midnight, the id 0, the audit fields null |
| SubscriptionMapper.ModelRoundTrip | src/main/java/com/sms/SubscriptionService/mapper/SubscriptionMapper.java:16-53 | model to entity to model gives back each id and date exactly when it was canonical, and the enums always |
| AuthTokenMapper.ToEntity | src/main/java/com/sms/SubscriptionService/mapper/AuthTokenMapper.java:18-30 | a new ACTIVE token of the user with the given string, stamped with the user's name on the day of `now`; it expires that day, or the next one when issued in the last two minutes of the day |
| Validation.EmailPatternIsRule | src/main/java/com/sms/SubscriptionService/model/UsersModel.java:27 | the email pattern is the rule "local part, the first '@', domain, the last '.', two or more upper-case letters", and a matching address has exactly one '@' |
| Validation.EmailSplitIsForced | src/main/java/com/sms/SubscriptionService/model/UsersModel.java:27 | any way of matching the email pattern puts its '@' at the only '@' and its '.' at the last '.' |
| Validation.PasswordPatternIsRule | src/main/java/com/sms/SubscriptionService/model/UsersModel.java:33 | the password pattern holds exactly when the password has eight or more allowed characters, among them a lower-case and an upper-case letter, a digit and a special character |
| Validation.PasswordPatternImpliesSize | src/main/java/com/sms/SubscriptionService/model/UsersModel.java:32-33 | the pattern already implies `@Size(min = 8)` |
| Validation.LowerCaseTopLevelDomainRejected | src/main/java/com/sms/SubscriptionService/model/UsersModel.java:27 | "user@example.com" is refused and "user@example.COM" accepted |
| Validation.DurationDaysDenotesPositive | src/main/java/com/sms/SubscriptionService/model/ServiceModel.java:33 | an accepted duration is the canonical text of a whole number of at least one |
| Validation.BmpLength | src/main/java/com/sms/SubscriptionService/model/UsersModel.java:23 | for ASCII text `@Size` counts characters |
| Validation.UserNameViolations | src/main/java/com/sms/SubscriptionService/model/UsersModel.java:21-24 | no violation exactly when the name is present, 2 to 50 long, letters and whitespace only; null gives only the null message |
| Validation.EmailViolations | src/main/java/com/sms/SubscriptionService/model/UsersModel.java:26-29 | no violation exactly when the address is present and follows the email rule; null gives only the null message |
| Validation.PasswordViolations | src/main/java/com/sms/SubscriptionService/model/UsersModel.java:31-35 | no violation exactly when the password is present and follows the password rule; null gives only the null message |
| Validation.PasswordChecks | src/main/java/com/sms/SubscriptionService/model/UsersModel.java:31-35 | the password's pattern constraint is its rule, and a matching password passes the size constraint |
| Validation.AccountNumberViolations | src/main/java/com/sms/SubscriptionService/model/UsersModel.java:37-39 | no violation exactly when the number is three upper-case letters then nine digits; null gives only the null message |
| Validation.UsersModelViolations | src/main/java/com/sms/SubscriptionService/model/UsersModel.java:21-49 | the union of the user model's field constraints is empty exactly when every string constraint holds and status and dates are present; each null field is reported with its own message (the `@Pattern` on the enum field is left out) |
| Validation.ServiceNameViolations | src/main/java/com/sms/SubscriptionService/model/ServiceModel.java:22-25 | no violation exactly when the name is present, 2 to 100 long, letters, digits and whitespace only |
| Validation.ServiceNameLength | src/main/java/com/sms/SubscriptionService/model/ServiceModel.java:23-24 | a service name matching the pattern is measured by `@Size` in characters |
| Validation.DescriptionViolations | src/main/java/com/sms/SubscriptionService/model/ServiceModel.java:27-30 | no violation exactly when the description is present, 10 to 500 long, over the allowed characters and punctuation |
| Validation.DescriptionLength | src/main/java/com/sms/SubscriptionService/model/ServiceModel.java:28-29 | a description matching the pattern is measured by `@Size` in characters |
| Validation.DurationDaysViolations | src/main/java/com/sms/SubscriptionService/model/ServiceModel.java:32-34 | no violation exactly when the duration is a digit string not starting with 0, which then denotes at least one day |
| Validation.ServiceModelViolations | src/main/java/com/sms/SubscriptionService/model/ServiceModel.java:22-44 | the union of the service model's field constraints is empty exactly when every string constraint holds and status and dates are present; each null field, status included, is reported with its own message (the `@Pattern` on the enum field is left out) |
| AuthTokenServiceImpl.ActiveCount | src/main/java/com/sms/SubscriptionService/service/servicesImpl/AuthTokenServiceImpl.java:61 | a user's ACTIVE count never exceeds the table size |
| AuthTokenServiceImpl.ActiveCountZero | src/main/java/com/sms/SubscriptionService/service/servicesImpl/AuthTokenServiceImpl.java:61 | a user holds no ACTIVE token exactly when none of the rows is one |
| AuthTokenServiceImpl.ActiveCountPointwise | src/main/java/com/sms/SubscriptionService/service/servicesImpl/AuthTokenServiceImpl.java:61 | tables agreeing row by row on a user's ACTIVE tokens give the same count |
| AuthTokenServiceImpl.ActiveCountAppend | src/main/java/com/sms/SubscriptionService/service/servicesImpl/AuthTokenServiceImpl.java:74 | saving one row adds its own contribution to each user's count |
| AuthTokenServiceImpl.DeactivateAll | src/main/java/com/sms/SubscriptionService/service/servicesImpl/AuthTokenServiceImpl.java:61-67 | every token of the user ends INACTIVE, others are untouched, no row moves; the user's ACTIVE count is 0, others' unchanged |
| AuthTokenServiceImpl.GenerateToken | src/main/java/com/sms/SubscriptionService/service/servicesImpl/AuthTokenServiceImpl.java:58-81 | the table grows by one row and loses none; the user's old tokens are INACTIVE, other users' rows and counts are unchanged; the new row is the mapper's; the user has exactly one ACTIVE token |
| AuthTokenServiceImpl.GenerateTokenPreservesValid | src/main/java/com/sms/SubscriptionService/service/servicesImpl/AuthTokenServiceImpl.java:61-74 | with a new UUID, issuing keeps at most one ACTIVE token per user, distinct strings and distinct ids |
| AuthTokenServiceImpl.AuthenticateUser | src/main/java/com/sms/SubscriptionService/service/servicesImpl/AuthTokenServiceImpl.java:40-56 | "User not found" exactly when no name matches ignoring case, "Invalid password" exactly when the found user's password differs, success exactly when it equals; a found user with a null password gives a `NullPointerException`; a failing lookup (several matching names) passes its error on; success answers `{"token": uuid}` after issuing to that user |
| AuthTokenServiceImpl.CheckToken | src/main/java/com/sms/SubscriptionService/service/servicesImpl/AuthTokenServiceImpl.java:86-101 | unknown exactly when no row carries the string; dead exactly when the row is INACTIVE or `today` is after its expiry day; owner found exactly when it is alive and its user exists |
| AuthTokenServiceImpl.Rejection | src/main/java/com/sms/SubscriptionService/service/servicesImpl/AuthTokenServiceImpl.java:88-100 | a failed check is always a `BusinessValidationException` |
| AuthTokenServiceImpl.IsUserValid | src/main/java/com/sms/SubscriptionService/service/servicesImpl/AuthTokenServiceImpl.java:83-105 | true exactly when the check finds an owner, never false; a failing token lookup passes its error on; "Invalid token", "Token is a expired" and "User not found" each exactly for their failed check |
| AuthTokenServiceImpl.ValidToken | src/main/java/com/sms/SubscriptionService/service/servicesImpl/AuthTokenServiceImpl.java:107-129 | succeeds exactly when `isUserValid` would and then issues a new token to the owner; a failing token lookup passes its error on; "Invalid token", the refresh message and "User not found" each exactly for their failed check |
| AuthTokenServiceImpl.FindsRow | src/main/java/com/sms/SubscriptionService/repository/AuthTokenRepository.java:16 | with distinct strings, `findByToken` returns the row carrying the string |
| AuthTokenServiceImpl.IsUserValidAccepts | src/main/java/com/sms/SubscriptionService/service/servicesImpl/AuthTokenServiceImpl.java:83-105 | a token is accepted exactly when its row is ACTIVE, unexpired on `today`, and owned by an existing user |
| AuthTokenServiceImpl.GenerateTokenKeepsDistinct | src/main/java/com/sms/SubscriptionService/service/servicesImpl/AuthTokenServiceImpl.java:69-74 | a new UUID keeps token strings distinct |
| AuthTokenServiceImpl.IssuedTokenLifetime | src/main/java/com/sms/SubscriptionService/service/servicesImpl/AuthTokenServiceImpl.java:92-95 | a new token is accepted exactly until its expiry day is over: on the issue day it passes, after the following day it is expired |
| AuthTokenServiceImpl.ReissueRevokes | src/main/java/com/sms/SubscriptionService/service/servicesImpl/AuthTokenServiceImpl.java:61-67 | once a user is issued a new token, every earlier token of theirs is refused as expired |
| AuthTokenServiceImpl.ValidTokenRotates | src/main/java/com/sms/SubscriptionService/service/servicesImpl/AuthTokenServiceImpl.java:107-129 | after a refresh the presented token is refused and the new one accepted on its issue day |
| LegacyAuthTokenService.NewToken | src/main/java/com/sms/SubscriptionService/service/servicesImpl/AuthTokenService.java:48-57 | the hand-built record is the one the mapper builds |
| LegacyAuthTokenService.GenerateToken | src/main/java/com/sms/SubscriptionService/service/servicesImpl/AuthTokenService.java:37-62 | issues exactly what the newer service issues, leaving the user one ACTIVE token |
| LegacyAuthTokenService.AuthenticateUser | src/main/java/com/sms/SubscriptionService/service/servicesImpl/AuthTokenService.java:26-35 | "User not found" exactly when no name matches exactly, "Invalid password" exactly when the found user's password differs; a found user with a null password gives a `NullPointerException`; a failing lookup (several matching names) passes its error on; otherwise a token issued to that user |
| LegacyAuthTokenService.IsUserValid | src/main/java/com/sms/SubscriptionService/service/servicesImpl/AuthTokenService.java:64-72 | true exactly when the token's row and its owner exist, whatever the status and expiry; "Invalid token" exactly when no row carries it; "User not found" exactly when the row exists but its owner does not; a failing lookup passes its error on |
| LegacyAuthTokenService.NewerAcceptsLess | src/main/java/com/sms/SubscriptionService/service/servicesImpl/AuthTokenService.java:64-72 | every token the newer service accepts, the older one accepts |
| LegacyAuthTokenService.AcceptsDeadTokens | src/main/java/com/sms/SubscriptionService/service/servicesImpl/AuthTokenService.java:64-72 | an INACTIVE or expired token of an existing user passes the older check and fails the newer one |
| LegacyAuthTokenService.LoginNameCase | src/main/java/com/sms/SubscriptionService/service/servicesImpl/AuthTokenService.java:27-28 | a user stored as "alice" cannot log in as "ALICE" with the older service but can with the newer |
| AuthTokenInterceptor.PreHandle | src/main/java/com/sms/SubscriptionService/interceptor/AuthTokenInterceptor.java:16-40 | proceeds exactly when the header starts with "Bearer " and the validator returns true for the rest; missing prefix, false and business exceptions give 401 with their messages, other exceptions 500 with "An error occurred while processing the request" |
| AuthTokenInterceptor.ValidatorSeesBearerToken | src/main/java/com/sms/SubscriptionService/interceptor/AuthTokenInterceptor.java:19-24 | the validator sees exactly the text after "Bearer ", and a header with another case of the prefix never reaches it |
| AuthTokenInterceptor.GateWithTokenService | src/main/java/com/sms/SubscriptionService/interceptor/AuthTokenInterceptor.java:16-40 | with the token service behind it, a request passes exactly when it carries an ACTIVE, unexpired token of an existing user |
| SubscriptionServiceImpl.IsValidDbStatus | src/main/java/com/sms/SubscriptionService/service/servicesImpl/SubscriptionServiceImpl.java:84-86 | only ACTIVE is accepted; null is not |
| SubscriptionServiceImpl.ValidateSubscriptionDates | src/main/java/com/sms/SubscriptionService/service/servicesImpl/SubscriptionServiceImpl.java:104-120 | null, unparsable and past start dates each fail with their own message; success exactly for a parsable day not before today |
| SubscriptionServiceImpl.CheckActiveSubscription | src/main/java/com/sms/SubscriptionService/service/servicesImpl/SubscriptionServiceImpl.java:88-91 | fails exactly when the service id does not parse; otherwise true exactly when an ACTIVE row exists for the pair |
| SubscriptionServiceImpl.CreatedByOrSystem | src/main/java/com/sms/SubscriptionService/service/servicesImpl/SubscriptionServiceImpl.java:72-74 | a non-empty creator is kept, a null or empty one becomes "system" |
| SubscriptionServiceImpl.CreateSubscription | src/main/java/com/sms/SubscriptionService/service/servicesImpl/SubscriptionServiceImpl.java:44-82 | succeeds exactly when both ids parse, the request is ACTIVE with no ACTIVE duplicate, the start date passes and the mapper converts; otherwise the first failure in source order: bad service id, INACTIVE, null status, bad user id, duplicate, the start-date error, the mapper's error; success appends exactly one ACTIVE record with the parsed ids and start day, end date `now`, audit stamps and creator, leaving the old rows |
| SubscriptionServiceImpl.ParseIfPresent | src/main/java/com/sms/SubscriptionService/service/servicesImpl/SubscriptionServiceImpl.java:137-142 | an absent id is skipped, a present one parsed or rejected with `NumberFormatException` |
| SubscriptionServiceImpl.ConvertIfPresent | src/main/java/com/sms/SubscriptionService/service/servicesImpl/SubscriptionServiceImpl.java:147-162 | an absent date is skipped, a present one converted to midnight or rejected with the date utility's message |
| SubscriptionServiceImpl.UpdateSubscriptionDetails | src/main/java/com/sms/SubscriptionService/service/servicesImpl/SubscriptionServiceImpl.java:136-165 | succeeds exactly when every present field converts; a bad id wins over a bad date (`NumberFormatException`), and a bad date alone gives the date-format error; each present field replaces the stored one and each absent one is kept; id, status and creation stamps unchanged; updated by "Admin" at `now` |
| SubscriptionServiceImpl.UpdateSubscription | src/main/java/com/sms/SubscriptionService/service/servicesImpl/SubscriptionServiceImpl.java:122-134 | not found exactly when no row has the id; otherwise it succeeds exactly when the row's update succeeds, fails with that update's error when it does not, and on success replaces only that row |
| SubscriptionServiceImpl.CancelSubscription | src/main/java/com/sms/SubscriptionService/service/servicesImpl/SubscriptionServiceImpl.java:168-188 | succeeds exactly when both the user and the subscription exist; otherwise user not found (checked first) or subscription not found; on success only that row becomes INACTIVE, updated by "Admin" at `now` |
| SubscriptionServiceImpl.GetSubscriptionDetails | src/main/java/com/sms/SubscriptionService/service/servicesImpl/SubscriptionServiceImpl.java:192-214 | succeeds exactly for a positive id of an existing user who has rows, returning exactly the user's rows in any status; otherwise null or non-positive id, unknown user, no rows, in that order, each with its message |
| SubscriptionServiceImpl.GetSubscriptionUserId | src/main/java/com/sms/SubscriptionService/service/servicesImpl/SubscriptionServiceImpl.java:93-102 | fails exactly for INACTIVE; otherwise returns the model of every one of the user's rows in that status, and each answer is the model of such a stored row; a null status gives nothing |
| SubscriptionServiceImpl.ToModels | src/main/java/com/sms/SubscriptionService/service/servicesImpl/SubscriptionServiceImpl.java:99-101 | each row becomes its model, in order, so every row's model is in the answer |
| SubscriptionServiceImpl.CreatePreservesValid | src/main/java/com/sms/SubscriptionService/service/servicesImpl/SubscriptionServiceImpl.java:50-77 | a successful create keeps at most one ACTIVE subscription per (user, service) and distinct ids |
| SubscriptionServiceImpl.AppendPreservesValid | src/main/java/com/sms/SubscriptionService/service/servicesImpl/SubscriptionServiceImpl.java:50-77 | saving a record under the next id keeps the invariant unless it is a second ACTIVE one for its pair |
| SubscriptionServiceImpl.CreateThenCheckActive | src/main/java/com/sms/SubscriptionService/service/servicesImpl/SubscriptionServiceImpl.java:88-91 | right after a successful create, `checkActiveSubscription` is true for the pair |
| SubscriptionServiceImpl.CreateThenDetails | src/main/java/com/sms/SubscriptionService/service/servicesImpl/SubscriptionServiceImpl.java:44-82 | after a create, `getSubscriptionDetails` of an existing owner succeeds and lists the new record with every record listed before |
| SubscriptionServiceImpl.CreateThenListActive | src/main/java/com/sms/SubscriptionService/service/servicesImpl/SubscriptionServiceImpl.java:44-102 | after a create, `getSubscriptionUserId` of the owner for ACTIVE lists the model the create returned |
| SubscriptionServiceImpl.DetailsAfterAppend | src/main/java/com/sms/SubscriptionService/service/servicesImpl/SubscriptionServiceImpl.java:192-214 | saving a record of an existing user makes `getSubscriptionDetails` list it along with every record it listed before |
| SubscriptionServiceImpl.StartDateBoundary | src/main/java/com/sms/SubscriptionService/service/servicesImpl/SubscriptionServiceImpl.java:110-115 | a start date of today is accepted, any earlier day refused as in the past |
| SubscriptionServiceImpl.CancelPreservesValid | src/main/java/com/sms/SubscriptionService/service/servicesImpl/SubscriptionServiceImpl.java:179-185 | cancelling keeps the table's invariant |
| SubscriptionServiceImpl.CancelIdempotent | src/main/java/com/sms/SubscriptionService/service/servicesImpl/SubscriptionServiceImpl.java:179-185 | cancelling twice at the same moment equals cancelling once |
| SubscriptionServiceImpl.CancelIgnoresOwnership | src/main/java/com/sms/SubscriptionService/service/servicesImpl/SubscriptionServiceImpl.java:172-182 | any existing user can cancel another user's subscription |
| SubscriptionServiceImpl.NullUpdateStampsOnly | src/main/java/com/sms/SubscriptionService/service/servicesImpl/SubscriptionServiceImpl.java:136-165 | an update with only nulls changes nothing but the update stamp |
| SubscriptionServiceImpl.UpdateKeepsIds | src/main/java/com/sms/SubscriptionService/service/servicesImpl/SubscriptionServiceImpl.java:122-134 | an update keeps primary keys distinct and below the counter |
| SubscriptionServiceImpl.StatusOnlyUpdate | src/main/java/com/sms/SubscriptionService/service/servicesImpl/SubscriptionServiceImpl.java:136-165 | an update naming only a status always succeeds and keeps the user and service while setting that status |
| SubscriptionServiceImpl.UpdateCanBreakUniqueActive | src/main/java/com/sms/SubscriptionService/service/servicesImpl/SubscriptionServiceImpl.java:144-146 | re-activating a cancelled subscription next to an ACTIVE one for the same pair leaves two ACTIVE rows |

## Left out

- **Concurrency.** `@Transactional` and the check-then-insert race on
  subscription uniqueness are left out. Operations are modelled one at a
  time.
- **Not modelled at all.** Logging; the controllers; the exception-to-HTTP
  mapping; the interceptor wiring; the `service/*` interfaces.
- **Unused queries.** `getAllSubscriptions` returns the whole table
  unchanged, so there is nothing to state about it. The repository queries
  `findByTokenAndDbstatus`, `findByExpireDateBeforeAndDbstatus`,
  `findActiveSubscriptionsByUserId` and `ServiceRepository.findByIdAndDbstatus`
  are never called by the modelled code.
- **Users entity.** `entity/Users.java` is not part of this model. The
  `User` record carries the fields the mappers and services use.
- **Clock and UUIDs.** Both are parameters. Times have second resolution;
  sub-second precision is not modelled.
- **IDENTITY columns** are modelled as a counter. Their overflow is not
  modelled.
- **Null path variables.** A null path-variable id reaching `updateSubscription`,
  `cancelSubscription` or `checkActiveSubscription` is not modelled; these
  ids are plain integers in the model.
- **The exception hierarchy.** `exception/custom/InvalidDateFormatException.java`
  is not part of this model. The model assumes that class does not extend
  `DateTimeParseException`. Two behaviours rest on that assumption:
  - In `validateSubscriptionDates`, the "must not be in the past" exception
    thrown inside the `try` is not caught by the `DateTimeParseException`
    handler, so its own message reaches the caller.
  - In `updateSubscriptionDetails`, the date handlers never fire, because
    `DateUtils.convertToLocalDate` already turned the parse failure into an
    `InvalidDateFormatException`. Its message reaches the caller.

  If the class did extend `DateTimeParseException`, both handlers would
  replace those messages with their own.
- Decimal.ParseInt: accepts only ASCII digits, whereas `Integer.parseInt`
  also accepts other Unicode decimal digits. Ids in this system come from
  JSON text.
- DateUtils.ParseYyyyMmDd: accepts exactly four year digits. `java.time`'s
  `yyyy` would also read a '+'-signed year of more than four digits, which
  is not modelled.
- Validation.UsersModelViolations: is the union of the field constraints,
  not the outcome of validating a `UsersModel`. The `@Pattern` on the
  enum-typed `dbstatus` (UsersModel.java:41-43) has no validator for an enum
  type, so Hibernate Validator throws `UnexpectedTypeException` whenever the
  whole model is validated. That exception and that `@Pattern` are not
  modelled.
- Validation.ServiceModelViolations: is the union of the field constraints,
  not the outcome of validating a `ServiceModel`, for the same reason: the
  `@Pattern` on its enum-typed `dbstatus` (ServiceModel.java:36-38) makes
  validating the whole model throw `UnexpectedTypeException`, which is not
  modelled.
- DateUtils.LocalDateToString: for a year-of-era past 9999 it states only
  that the model's parser rejects the printed text. `java.time` would read
  "+10000" followed by month and day back to that date, as noted for
  `DateUtils.ParseYyyyMmDd`.
- Repositories.FindUserByUserNameIgnoreCase: ignores case the way
  `equalsIgnoreCase` does for ASCII and the four non-ASCII letters Java
  folds onto ASCII. The derived query compares `upper(userName)` with
  `upper(?)` in the database, and the two can differ in both directions: a
  collation may fold letters `equalsIgnoreCase` keeps apart, and SQL `upper`
  leaves the Kelvin sign (U+212A) and the dotted capital I (U+0130) alone,
  which the model folds onto ASCII.
- AuthTokenServiceImpl.AuthenticateUser: a null user name is not modelled.
  The user name is a plain string.
- SubscriptionServiceImpl.UpdateSubscription: a failing update is modelled
  as changing nothing. The Java code may already have set some fields of
  the managed entity in memory before the failing one; they are not saved
  by the method.

=== FILE: chars.dfy ===
/** Character classes used by the regular expressions and parsers of the
    system, and the case folding behind `String.equalsIgnoreCase`. */
module Chars {

  predicate IsDigit(c: char) {
    '0' <= c <= '9'
  }

  predicate IsUpper(c: char) {
    'A' <= c <= 'Z'
  }

  predicate IsLower(c: char) {
    'a' <= c <= 'z'
  }

  /** `[A-Za-z]` */
  predicate IsLetter(c: char) {
    IsUpper(c) || IsLower(c)
  }

  /** Java's predefined regex class `\s`, i.e. `[ \t\n\x0B\f\r]`. */
  predicate IsSpace(c: char) {
    c == ' ' || c == '\t' || c == '\n' || c == '\U{000B}' || c == '\U{000C}' || c == '\r'
  }

  /** True iff every character of `s` satisfies `p`. */
  predicate All(s: string, p: char -> bool) {
    forall i :: 0 <= i < |s| ==> p(s[i])
  }

  /** True iff some character of `s` satisfies `p`. */
  predicate Any(s: string, p: char -> bool) {
    exists i :: 0 <= i < |s| && p(s[i])
  }

  /** The numeric value of an ASCII digit. */
  function DigitValue(c: char): (d: nat)
    requires IsDigit(c)
    ensures d < 10
  {
    (c as int) - ('0' as int)
  }

  /** The ASCII digit of a value below ten. */
  function DigitChar(d: nat): (c: char)
    requires d < 10
    ensures IsDigit(c) && DigitValue(c) == d
  {
    (('0' as int) + d) as char
  }

  /** The representative of `c`'s case class, as far as Java's
      `equalsIgnoreCase` can equate it with an ASCII letter: lower-case ASCII
      letters map to upper case, and so do the four non-ASCII characters Java
      folds onto ASCII letters (dotless i and long s upper-case to I and S;
      dotted capital I and the Kelvin sign lower-case to i and k). */
  function UpperFold(c: char): (u: char)
    ensures IsUpper(c) ==> u == c
    ensures IsLower(c) ==> IsUpper(u) && u as int == c as int - 32
  {
    if IsLower(c) then ((c as int) - 32) as char
    else if c == '\U{0131}' || c == '\U{0130}' then 'I'
    else if c == '\U{017F}' then 'S'
    else if c == '\U{212A}' then 'K'
    else c
  }

  /** `a.equalsIgnoreCase(b)` where `b` is written in upper-case ASCII letters
      and underscores (the enum constant names); see `UpperFold`. */
  predicate SameIgnoringCase(a: string, b: string): (r: bool)
    ensures a == b ==> r
    ensures r ==> |a| == |b|
  {
    |a| == |b| && forall i :: 0 <= i < |a| ==> UpperFold(a[i]) == UpperFold(b[i])
  }

  /** Comparing ignoring case is an equivalence: reflexive, symmetric and
      transitive. */
  lemma SameIgnoringCaseEquivalence(a: string, b: string, c: string)
    ensures SameIgnoringCase(a, a)
    ensures SameIgnoringCase(a, b) ==> SameIgnoringCase(b, a)
    ensures SameIgnoringCase(a, b) && SameIgnoringCase(b, c) ==> SameIgnoringCase(a, c)
  {
  }

  /** The length Java's `String.length()` reports: characters outside the
      Basic Multilingual Plane take two UTF-16 code units. */
  function Utf16Length(s: string): (n: nat)
    ensures |s| <= n <= 2 * |s|
    ensures (forall i :: 0 <= i < |s| ==> s[i] as int < 0x1_0000) ==> n == |s|
  {
    if |s| == 0 then 0
    else (if s[0] as int < 0x1_0000 then 1 else 2) + Utf16Length(s[1..])
  }

  /** The index of the first `c` in `s` (`String.indexOf`), or -1. */
  function IndexOf(s: string, c: char): (r: int)
    ensures -1 <= r < |s|
    ensures r == -1 ==> forall k :: 0 <= k < |s| ==> s[k] != c
    ensures r >= 0 ==> s[r] == c && forall k :: 0 <= k < r ==> s[k] != c
  {
    if |s| == 0 then -1
    else if s[0] == c then 0
    else var r := IndexOf(s[1..], c); if r == -1 then -1 else r + 1
  }

  /** The index of the last `c` in `s` (`String.lastIndexOf`), or -1. */
  function LastIndexOf(s: string, c: char): (r: int)
    ensures -1 <= r < |s|
    ensures r == -1 ==> forall k :: 0 <= k < |s| ==> s[k] != c
    ensures r >= 0 ==> s[r] == c && forall k :: r < k < |s| ==> s[k] != c
  {
    if |s| == 0 then -1
    else if s[|s| - 1] == c then |s| - 1
    else LastIndexOf(s[..|s| - 1], c)
  }
}

=== FILE: dates.dfy ===
/** `DateUtils` and the slice of `java.time` it relies on: proleptic
    Gregorian dates, date-times at second resolution, and the `yyyyMMdd`
    pattern as `DateTimeFormatter.ofPattern` parses (SMART resolver) and
    prints it. */
module DateUtils {
  import opened Wrappers
  import opened Errors
  import opened Chars
  import opened Decimal

  datatype Date = Date(year: int, month: int, day: int)

  /** `Year.isLeap`: the Gregorian leap-year rule. */
  predicate IsLeapYear(y: int) {
    y % 4 == 0 && (y % 100 != 0 || y % 400 == 0)
  }

  function DaysInMonth(y: int, m: int): (n: int)
    requires 1 <= m <= 12
    ensures 28 <= n <= 31
    ensures n == 29 <==> m == 2 && IsLeapYear(y)
  {
    if m == 2 then (if IsLeapYear(y) then 29 else 28)
    else if m == 4 || m == 6 || m == 9 || m == 11 then 30
    else 31
  }

  predicate IsValidDate(d: Date) {
    1 <= d.month <= 12 && 1 <= d.day <= DaysInMonth(d.year, d.month)
  }

  /** A `java.time.LocalDate`: always a real calendar day. */
  type LocalDate = d: Date | IsValidDate(d) witness Date(1970, 1, 1)

  const SecondsPerDay: int := 86400

  type SecondOfDay = s: int | 0 <= s < SecondsPerDay

  /** A `java.time.LocalDateTime`; sub-second precision is not modelled. */
  datatype LocalDateTime = LocalDateTime(date: LocalDate, secondOfDay: SecondOfDay)

  /** `a.isBefore(b)`: chronological order of days. */
  predicate IsBefore(a: Date, b: Date) {
    || a.year < b.year
    || (a.year == b.year && a.month < b.month)
    || (a.year == b.year && a.month == b.month && a.day < b.day)
  }

  /** `a.isAfter(b)` */
  predicate IsAfter(a: Date, b: Date) {
    IsBefore(b, a)
  }

  /** `LocalDate.atStartOfDay()` */
  function AtStartOfDay(d: LocalDate): (t: LocalDateTime)
    ensures t.date == d && t.secondOfDay == 0
  {
    LocalDateTime(d, 0)
  }

  /** `LocalDateTime.toLocalDate()` (`localDateTimeToLocalDate`) */
  function LocalDateTimeToLocalDate(t: LocalDateTime): (d: LocalDate)
    ensures d == t.date
  {
    t.date
  }

  /** `LocalDate.plusDays(1)` */
  function NextDay(d: LocalDate): (r: LocalDate)
    ensures IsBefore(d, r)
    ensures r.year == d.year || (r.year == d.year + 1 && r.month == 1 && r.day == 1)
  {
    if d.day < DaysInMonth(d.year, d.month) then Date(d.year, d.month, d.day + 1)
    else if d.month < 12 then Date(d.year, d.month + 1, 1)
    else Date(d.year + 1, 1, 1)
  }

  /** No day lies strictly between a day and the next one. */
  lemma NextDayIsSuccessor(d: LocalDate, x: LocalDate)
    requires IsBefore(d, x)
    ensures !IsBefore(x, NextDay(d))
  {
  }

  /** `LocalDateTime.plusSeconds(n)` for a non-negative `n`, rolling over
      midnight as often as needed. */
  function PlusSeconds(t: LocalDateTime, n: nat): (r: LocalDateTime)
    ensures !IsBefore(r.date, t.date)
    ensures t.secondOfDay + n < SecondsPerDay ==> r.date == t.date && r.secondOfDay == t.secondOfDay + n
    ensures n < SecondsPerDay ==> r.date == t.date || r.date == NextDay(t.date)
    ensures n < SecondsPerDay <= t.secondOfDay + n ==> r.date == NextDay(t.date)
    decreases n
  {
    if t.secondOfDay + n < SecondsPerDay then LocalDateTime(t.date, t.secondOfDay + n)
    else PlusSeconds(LocalDateTime(NextDay(t.date), 0), n - (SecondsPerDay - t.secondOfDay))
  }

  /** `LocalDateTime.plusMinutes(k)` */
  function PlusMinutes(t: LocalDateTime, k: nat): (r: LocalDateTime)
    ensures !IsBefore(r.date, t.date)
    ensures 60 * k < SecondsPerDay ==> r.date == t.date || r.date == NextDay(t.date)
    ensures 60 * k < SecondsPerDay ==> (r.date == t.date <==> t.secondOfDay + 60 * k < SecondsPerDay)
  {
    PlusSeconds(t, 60 * k)
  }

  // ---------------------------------------------------------------------------
  // The yyyyMMdd pattern

  /** `LocalDate.parse(s, ofPattern("yyyyMMdd"))`; `None` stands for the
      `DateTimeParseException`. Exactly four year digits, two month digits and
      two day digits (ASCII); the year-of-era must be at least 1, the month
      1-12 and the day 1-31. The SMART resolver then moves a day past the end
      of its month back to the month's last day. */
  function ParseYyyyMmDd(s: string): (r: Option<LocalDate>)
    ensures r.Some? <==>
      && |s| == 8 && AllDigits(s)
      && 1 <= DigitsValue(s[..4])
      && 1 <= DigitsValue(s[4..6]) <= 12
      && 1 <= DigitsValue(s[6..]) <= 31
    ensures r.Some? ==>
      && r.value.year == DigitsValue(s[..4])
      && r.value.month == DigitsValue(s[4..6])
      && r.value.day <= DigitsValue(s[6..])
      && (DigitsValue(s[6..]) <= DaysInMonth(r.value.year, r.value.month) <==> r.value.day == DigitsValue(s[6..]))
  {
    if |s| != 8 || !AllDigits(s) then None
    else
      var y := DigitsValue(s[..4]);
      var m := DigitsValue(s[4..6]);
      var d := DigitsValue(s[6..]);
      if y < 1 || m < 1 || m > 12 || d < 1 || d > 31 then None
      else Some(Date(y, m, if d <= DaysInMonth(y, m) then d else DaysInMonth(y, m)))
  }

  const InvalidFormatMessage: string := "Invalid date format. Please use yyyyMMdd format."

  /** `DateUtils.convertToLocalDate`: a parse failure becomes
      `InvalidDateFormatException`; a null string reaches `LocalDate.parse`,
      which throws `NullPointerException` (not caught). */
  function ConvertToLocalDate(s: Option<string>): (r: Result<LocalDate, Error>)
    ensures s.None? ==> r == Err(NullPointer)
    ensures s.Some? && ParseYyyyMmDd(s.value).None? ==> r == Err(InvalidDateFormat(InvalidFormatMessage))
    ensures s.Some? && ParseYyyyMmDd(s.value).Some? ==> r == Ok(ParseYyyyMmDd(s.value).value)
  {
    match s
    case None => Err(NullPointer)
    case Some(text) =>
      match ParseYyyyMmDd(text)
      case None => Err(InvalidDateFormat(InvalidFormatMessage))
      case Some(d) => Ok(d)
  }

  /** `DateUtils.convertToLocalDateTime`: midnight of the parsed day. */
  function ConvertToLocalDateTime(s: Option<string>): (r: Result<LocalDateTime, Error>)
    ensures r.Ok? <==> ConvertToLocalDate(s).Ok?
    ensures r.Ok? ==> r.value == AtStartOfDay(ConvertToLocalDate(s).value)
    ensures r.Err? ==> r.error == ConvertToLocalDate(s).error
  {
    match ConvertToLocalDate(s)
    case Ok(d) => Ok(AtStartOfDay(d))
    case Err(e) => Err(e)
  }

  /** The `yyyy` field prints the year-of-era, which is 1 - y for y <= 0. */
  function YearOfEra(y: int): (e: nat)
    ensures y >= 1 ==> e == y
  {
    if y >= 1 then y else 1 - y
  }

  /** `DateUtils.localDateToString`: the year-of-era zero-padded to four
      digits (a longer year gets a leading '+'), then two-digit month and day.
      For years 1 to 9999 the text is canonical and parses back to the date.
      A year-of-era past 9999 prints a '+'-signed year, which `ParseYyyyMmDd`
      does not read, since it leaves '+'-signed years out. */
  function LocalDateToString(d: LocalDate): (s: string)
    ensures 1 <= d.year <= 9999 ==> IsCanonicalDate(s) && ParseYyyyMmDd(s) == Some(d)
    ensures YearOfEra(d.year) > 9999 ==> |s| > 0 && s[0] == '+' && ParseYyyyMmDd(s).None?
  {
    var e := YearOfEra(d.year);
    if e > 9999 then
      "+" + NatToString(e) + FixedWidth(d.month, 2) + FixedWidth(d.day, 2)
    else
      PrintedFields(e, d.month, d.day);
      FixedWidth(e, 4) + FixedWidth(d.month, 2) + FixedWidth(d.day, 2)
  }

  /** The three zero-padded fields of a date of at most four year digits, read
      back positionally. */
  lemma PrintedFields(y: nat, m: nat, d: nat)
    requires y <= 9999 && m <= 99 && d <= 99
    ensures var s := FixedWidth(y, 4) + FixedWidth(m, 2) + FixedWidth(d, 2);
      && |s| == 8 && AllDigits(s)
      && DigitsValue(s[..4]) == y && DigitsValue(s[4..6]) == m && DigitsValue(s[6..]) == d
  {
    var s := FixedWidth(y, 4) + FixedWidth(m, 2) + FixedWidth(d, 2);
    FixedWidthValue(y, 4);
    FixedWidthValue(m, 2);
    FixedWidthValue(d, 2);
    assert s[..4] == FixedWidth(y, 4);
    assert s[4..6] == FixedWidth(m, 2);
    assert s[6..] == FixedWidth(d, 2);
  }

  /** The strings `ParseYyyyMmDd` accepts and reads without clamping: the
      ones that name a real day of years 1 to 9999. */
  predicate IsCanonicalDate(s: string) {
    && |s| == 8 && AllDigits(s)
    && 1 <= DigitsValue(s[..4])
    && 1 <= DigitsValue(s[4..6]) <= 12
    && 1 <= DigitsValue(s[6..]) <= DaysInMonth(DigitsValue(s[..4]), DigitsValue(s[4..6]))
  }

  /** Four digits hold a year of at most 9999. */
  lemma ParsedYearInRange(s: string)
    requires ParseYyyyMmDd(s).Some?
    ensures 1 <= ParseYyyyMmDd(s).value.year <= 9999
  {
    DigitsValueBound(s[..4]);
    assert Pow10(4) == 10000;
  }

  /** A canonical string is read without clamping and printed back as it was. */
  lemma CanonicalDateReprints(s: string)
    requires IsCanonicalDate(s)
    ensures ParseYyyyMmDd(s).Some? && LocalDateToString(ParseYyyyMmDd(s).value) == s
  {
    var d := ParseYyyyMmDd(s).value;
    ParsedYearInRange(s);
    assert YearOfEra(d.year) == d.year;
    FixedWidthOfValue(s[..4]);
    FixedWidthOfValue(s[4..6]);
    FixedWidthOfValue(s[6..]);
    calc {
      LocalDateToString(d);
      FixedWidth(d.year, 4) + FixedWidth(d.month, 2) + FixedWidth(d.day, 2);
      { assert d.day == DigitsValue(s[6..]); }
      s[..4] + s[4..6] + s[6..];
      s;
    }
  }

  /** Parsing then printing gives an accepted string back exactly when it is
      canonical, i.e. when the SMART resolver did not clamp its day. */
  lemma LocalDateToStringOfParse(s: string)
    requires ParseYyyyMmDd(s).Some?
    ensures LocalDateToString(ParseYyyyMmDd(s).value) == s <==> IsCanonicalDate(s)
  {
    var d := ParseYyyyMmDd(s).value;
    if IsCanonicalDate(s) {
      CanonicalDateReprints(s);
    }
    if LocalDateToString(d) == s {
      ParsedYearInRange(s);
    }
  }

  /** `localDateTimeToLocalDate(convertToLocalDateTime(s)) == convertToLocalDate(s)`. */
  lemma DateOfConvertedDateTime(s: Option<string>)
    requires ConvertToLocalDate(s).Ok?
    ensures LocalDateTimeToLocalDate(ConvertToLocalDateTime(s).value) == ConvertToLocalDate(s).value
  {
  }

  /** The SMART resolver clamps instead of rejecting: 30 February reads as the
      last day of February. */
  lemma SmartResolverClampsDay()
    ensures ParseYyyyMmDd("20230230") == Some(Date(2023, 2, 28))
    ensures ParseYyyyMmDd("20240231") == Some(Date(2024, 2, 29))
    ensures ParseYyyyMmDd("20230431") == Some(Date(2023, 4, 30))
  {
    ClampExample("20230230", 2023, 2, 30);
    ClampExample("20240231", 2024, 2, 31);
    ClampExample("20230431", 2023, 4, 31);
  }

  /** One eight-digit string whose fields are the given numbers. */
  lemma ClampExample(s: string, y: int, m: int, d: int)
    requires |s| == 8 && AllDigits(s)
    requires y == 1000 * DigitValue(s[0]) + 100 * DigitValue(s[1]) + 10 * DigitValue(s[2]) + DigitValue(s[3])
    requires m == 10 * DigitValue(s[4]) + DigitValue(s[5])
    requires d == 10 * DigitValue(s[6]) + DigitValue(s[7])
    requires 1 <= y && 1 <= m <= 12 && 1 <= d <= 31
    ensures ParseYyyyMmDd(s) == Some(Date(y, m, if d <= DaysInMonth(y, m) then d else DaysInMonth(y, m)))
  {
    DateFieldValues(s);
  }

  /** What the pattern refuses outright: a day-of-month above 31, year zero,
      and separators. */
  lemma PatternRejects()
    ensures ParseYyyyMmDd("20230132").None?
    ensures ParseYyyyMmDd("00000101").None?
    ensures ParseYyyyMmDd("2023-01-01").None?
  {
    DateFieldValues("20230132");
    DateFieldValues("00000101");
  }

  /** The three fields of an eight-digit string, digit by digit. */
  lemma DateFieldValues(s: string)
    requires |s| == 8 && AllDigits(s)
    ensures DigitsValue(s[..4]) == 1000 * DigitValue(s[0]) + 100 * DigitValue(s[1]) + 10 * DigitValue(s[2]) + DigitValue(s[3])
    ensures DigitsValue(s[4..6]) == 10 * DigitValue(s[4]) + DigitValue(s[5])
    ensures DigitsValue(s[6..]) == 10 * DigitValue(s[6]) + DigitValue(s[7])
  {
    DigitsValue4(s[..4]);
    DigitsValue2(s[4..6]);
    DigitsValue2(s[6..]);
  }
}

=== FILE: decimal.dfy ===
/** Decimal text for integers: `Integer.parseInt` / `Integer.valueOf`,
    `String.valueOf(int)`, and the fixed-width zero-padded fields of a
    date pattern. Only ASCII digits are modelled. */
module Decimal {
  import opened Wrappers
  import opened Errors
  import opened Chars

  /** The range of a Java `int`. */
  const IntMin: int := -0x8000_0000
  const IntMax: int := 0x7FFF_FFFF

  predicate AllDigits(s: string) {
    forall i :: 0 <= i < |s| ==> IsDigit(s[i])
  }

  function Pow10(n: nat): (p: nat)
    ensures p >= 1
  {
    if n == 0 then 1 else 10 * Pow10(n - 1)
  }

  /** The value of a digit string, most significant digit first. */
  function DigitsValue(s: string): nat
    requires AllDigits(s)
  {
    if |s| == 0 then 0 else DigitsValue(s[..|s| - 1]) * 10 + DigitValue(s[|s| - 1])
  }

  /** The `w` low-order decimal digits of `n`, zero-padded on the left. */
  function FixedWidth(n: nat, w: nat): string {
    if w == 0 then [] else FixedWidth(n / 10, w - 1) + [DigitChar(n % 10)]
  }

  /** The shortest decimal text of `n`. */
  function NatToString(n: nat): string {
    if n < 10 then [DigitChar(n)] else NatToString(n / 10) + [DigitChar(n % 10)]
  }

  /** `String.valueOf(int)`: a minus sign for negative values, then the
      shortest digits. The text is canonical, and `Integer.parseInt` reads
      every `int` back from it. */
  function IntToString(n: int): (s: string)
    ensures CanonicalInt(s)
    ensures |s| >= 1 && (s[0] == '-' <==> n < 0)
    ensures IntMin <= n <= IntMax ==> ParseInt(s) == Ok(n)
  {
    var m: nat := if n < 0 then -n else n;
    NatToStringShape(m);
    NatToStringValue(m);
    if n < 0 then
      assert ("-" + NatToString(m))[1..] == NatToString(m);
      "-" + NatToString(m)
    else
      NatToString(m)
  }

  /** `s` without its leading sign, if it has one. */
  function Unsigned(s: string): (d: string)
    ensures |s| >= 1 && (s[0] == '-' || s[0] == '+') ==> s == [s[0]] + d
    ensures !(|s| >= 1 && (s[0] == '-' || s[0] == '+')) ==> d == s
  {
    if |s| >= 1 && (s[0] == '-' || s[0] == '+') then s[1..] else s
  }

  /** The value a sign and ASCII digits denote. */
  function SignedValue(s: string): int
    requires AllDigits(Unsigned(s))
  {
    if |s| >= 1 && s[0] == '-' then 0 - (DigitsValue(Unsigned(s)) as int) else DigitsValue(Unsigned(s))
  }

  /** `Integer.parseInt(s)`: an optional sign, at least one digit, and a value
      that fits in an `int`; anything else throws `NumberFormatException`. */
  function ParseInt(s: string): (r: Result<int, Error>)
    ensures r.Ok? <==>
      |Unsigned(s)| >= 1 && AllDigits(Unsigned(s)) && IntMin <= SignedValue(s) <= IntMax
    ensures r.Ok? ==> r.value == SignedValue(s)
    ensures r.Ok? ==> IntMin <= r.value <= IntMax
    ensures r.Err? ==> r.error == NumberFormat
    ensures r.Ok? ==> |s| >= 1 && (IsDigit(s[0]) || s[0] == '-' || s[0] == '+')
    ensures AllDigits(s) && |s| >= 1 && DigitsValue(s) <= IntMax ==> r == Ok(DigitsValue(s))
  {
    if |s| == 0 then Err(NumberFormat)
    else
      var signed := s[0] == '-' || s[0] == '+';
      var digits := if signed then s[1..] else s;
      if |digits| == 0 || !AllDigits(digits) then Err(NumberFormat)
      else
        var v: int := if s[0] == '-' then 0 - (DigitsValue(digits) as int) else DigitsValue(digits);
        if IntMin <= v <= IntMax then Ok(v) else Err(NumberFormat)
  }

  /** `Integer.parseInt` on a few inputs: a trailing non-digit and a bare
      sign fail; signs and leading zeros are read. */
  lemma ParseIntExamples()
    ensures ParseInt("12a").Err? && ParseInt("-").Err? && ParseInt("").Err?
    ensures ParseInt("-5") == Ok(-5) && ParseInt("+7") == Ok(7) && ParseInt("007") == Ok(7)
  {
    assert !IsDigit('a');
    assert Unsigned("-5") == "5";
    assert Unsigned("+7") == "7";
    assert Unsigned("007") == "007";
    assert "007"[..2] == "00" && "00"[..1] == "0" && "0"[..0] == [];
  }

  /** `Integer.parseInt` / `Integer.valueOf` on a nullable string: null throws
      `NumberFormatException` too. */
  function ParseNullableInt(s: Option<string>): (r: Result<int, Error>)
    ensures s.None? ==> r == Err(NumberFormat)
    ensures s.Some? ==> r == ParseInt(s.value)
  {
    match s
    case None => Err(NumberFormat)
    case Some(t) => ParseInt(t)
  }

  /** The texts `String.valueOf(int)` can produce: "0", or a non-zero leading
      digit, optionally after a minus sign. */
  predicate CanonicalInt(s: string) {
    var digits := if |s| > 0 && s[0] == '-' then s[1..] else s;
    && |digits| >= 1
    && AllDigits(digits)
    && (digits[0] != '0' || s == "0")
  }

  // ---------------------------------------------------------------------------
  // Lemmas about digit strings

  lemma DigitsValueAppend(s: string, c: char)
    requires AllDigits(s) && IsDigit(c)
    ensures AllDigits(s + [c])
    ensures DigitsValue(s + [c]) == DigitsValue(s) * 10 + DigitValue(c)
  {
    assert (s + [c])[..|s|] == s;
  }

  lemma {:induction false} DigitsValueBound(s: string)
    requires AllDigits(s)
    ensures DigitsValue(s) < Pow10(|s|)
  {
    if |s| > 0 {
      DigitsValueBound(s[..|s| - 1]);
    }
  }

  lemma {:induction false} LeadingNonZeroPositive(s: string)
    requires AllDigits(s) && |s| >= 1 && s[0] != '0'
    ensures DigitsValue(s) >= 1
  {
    if |s| > 1 {
      LeadingNonZeroPositive(s[..|s| - 1]);
    }
  }

  /** The value of a two-digit field. */
  lemma DigitsValue2(s: string)
    requires |s| == 2 && AllDigits(s)
    ensures DigitsValue(s) == 10 * DigitValue(s[0]) + DigitValue(s[1])
  {
    var p := s[..1];
    assert s[..|s| - 1] == p;
    assert DigitsValue(p) == DigitsValue(p[..0]) * 10 + DigitValue(p[0]);
    assert p[..0] == [];
  }

  /** The value of a four-digit field. */
  lemma DigitsValue4(s: string)
    requires |s| == 4 && AllDigits(s)
    ensures DigitsValue(s) == 1000 * DigitValue(s[0]) + 100 * DigitValue(s[1]) + 10 * DigitValue(s[2]) + DigitValue(s[3])
  {
    DigitsValue2(s[..2]);
    assert s[..3][..2] == s[..2];
    assert s[..2][..1] == s[..1];
  }

  /** `FixedWidth` yields exactly `w` digits. */
  lemma {:induction false} FixedWidthShape(n: nat, w: nat)
    ensures |FixedWidth(n, w)| == w
    ensures AllDigits(FixedWidth(n, w))
  {
    if w > 0 {
      FixedWidthShape(n / 10, w - 1);
    }
  }

  /** Reading back a zero-padded field gives the number, when it fits. */
  lemma {:induction false} FixedWidthValue(n: nat, w: nat)
    requires n < Pow10(w)
    ensures |FixedWidth(n, w)| == w
    ensures AllDigits(FixedWidth(n, w))
    ensures DigitsValue(FixedWidth(n, w)) == n
  {
    FixedWidthShape(n, w);
    if w > 0 {
      FixedWidthValue(n / 10, w - 1);
      DigitsValueAppend(FixedWidth(n / 10, w - 1), DigitChar(n % 10));
    }
  }

  /** Re-printing a digit field at its own width reproduces it, leading zeros included. */
  lemma {:induction false} FixedWidthOfValue(s: string)
    requires AllDigits(s)
    ensures FixedWidth(DigitsValue(s), |s|) == s
  {
    if |s| > 0 {
      var p := s[..|s| - 1];
      FixedWidthOfValue(p);
      assert s == p + [s[|s| - 1]];
    }
  }

  /** `NatToString` yields a canonical digit string. */
  lemma {:induction false} NatToStringShape(n: nat)
    ensures |NatToString(n)| >= 1
    ensures AllDigits(NatToString(n))
    ensures NatToString(n)[0] != '0' || n == 0
    ensures n < 10 <==> |NatToString(n)| == 1
  {
    if n >= 10 {
      NatToStringShape(n / 10);
    }
  }

  lemma {:induction false} NatToStringValue(n: nat)
    ensures AllDigits(NatToString(n))
    ensures DigitsValue(NatToString(n)) == n
  {
    NatToStringShape(n);
    if n >= 10 {
      NatToStringValue(n / 10);
      DigitsValueAppend(NatToString(n / 10), DigitChar(n % 10));
    }
  }

  /** Splitting off the last decimal digit. */
  lemma DivModDigit(a: nat, d: nat)
    requires d < 10
    ensures (a * 10 + d) / 10 == a && (a * 10 + d) % 10 == d
  {
  }

  lemma {:induction false} NatToStringOfValue(s: string)
    requires AllDigits(s) && |s| >= 1 && (s[0] != '0' || |s| == 1)
    ensures NatToString(DigitsValue(s)) == s
  {
    var p := s[..|s| - 1];
    var c := s[|s| - 1];
    assert s == p + [c];
    if |p| > 0 {
      LeadingNonZeroPositive(p);
      NatToStringOfValue(p);
      var v := DigitsValue(s);
      assert v == DigitsValue(p) * 10 + DigitValue(c);
      DivModDigit(DigitsValue(p), DigitValue(c));
      assert NatToString(v) == NatToString(v / 10) + [DigitChar(v % 10)];
      assert DigitChar(DigitValue(c)) == c;
    } else {
      assert DigitChar(DigitValue(c)) == c;
    }
  }

  // ---------------------------------------------------------------------------
  // Round trips between Integer.parseInt and String.valueOf(int)

  /** A minus sign before canonical non-zero digits is how a negative value
      prints. */
  lemma NegativeReprints(d: string)
    requires AllDigits(d) && |d| >= 1 && d[0] != '0'
    ensures IntToString(0 - (DigitsValue(d) as int)) == "-" + d
  {
    NatToStringOfValue(d);
    LeadingNonZeroPositive(d);
  }

  /** For text that parses, printing the parsed value gives the text back
      exactly when the text is canonical ("+5", "007" and "-0" are not). */
  lemma IntToStringOfParseInt(s: string)
    requires ParseInt(s).Ok?
    ensures IntToString(ParseInt(s).value) == s <==> CanonicalInt(s)
  {
    if CanonicalInt(s) {
      if s[0] == '-' {
        var d := s[1..];
        assert s == "-" + d;
        NegativeReprints(d);
      } else {
        NatToStringOfValue(s);
      }
    }
  }
}

=== FILE: entities.dfy ===
/** The persistent records (the `entity` package). A Java reference field
    that may hold null is an `Option`; a primitive `int` is an `int`. */
module Entities {
  import opened Wrappers
  import opened DateUtils
  import opened StatusEnum
  import opened SubscriptionStatusEnum

  /** `entity/Users`. Its source file is not part of this model; the fields
      are the ones `UsersMapper` and the token service read and write, with
      the audit fields shaped as in `entity/Service`. */
  datatype User = User(
    id: int,
    userName: Option<string>,
    email: Option<string>,
    password: Option<string>,
    accountNumber: Option<string>,
    dbstatus: Option<Status>,
    createdDate: Option<LocalDate>,
    updatedDate: Option<LocalDate>,
    createdBy: Option<string>,
    updatedBy: Option<string>)

  /** `entity/AuthTokens`: one issued token. Its date columns are `LocalDate`s. */
  datatype AuthToken = AuthToken(
    id: int,
    userId: int,
    token: string,
    issuedDate: LocalDate,
    expireDate: LocalDate,
    dbstatus: Status,
    createdDate: LocalDate,
    updatedDate: LocalDate,
    createdBy: Option<string>,
    updatedBy: Option<string>)

  /** `entity/Subscription`, plus the `status` field that `SubscriptionMapper`
      reads and writes although the entity class does not declare it. The
      audit fields stay null until the service stamps them. */
  datatype Subscription = Subscription(
    id: int,
    userId: int,
    serviceId: int,
    startDate: LocalDateTime,
    endDate: LocalDateTime,
    status: SubscriptionStatus,
    dbstatus: Status,
    createdDate: Option<LocalDateTime>,
    updatedDate: Option<LocalDateTime>,
    createdBy: Option<string>,
    updatedBy: Option<string>)

  /** `entity/Service` (the class is named `Service`). */
  datatype Service = Service(
    id: int,
    serviceName: Option<string>,
    description: Option<string>,
    durationDays: Option<string>,
    dbstatus: Option<Status>,
    createdDate: Option<LocalDate>,
    updatedDate: Option<LocalDate>,
    createdBy: Option<string>,
    updatedBy: Option<string>)
}

/** The request/response shapes (the `model` package). */
module Models {
  import opened Wrappers
  import opened DateUtils
  import opened StatusEnum
  import opened SubscriptionStatusEnum

  /** `model/SubscriptionModel`: ids and dates travel as text. */
  datatype SubscriptionModel = SubscriptionModel(
    id: Option<string>,
    userId: Option<string>,
    serviceId: Option<string>,
    startDate: Option<string>,
    endDate: Option<string>,
    status: Option<SubscriptionStatus>,
    dbstatus: Option<Status>,
    createdDate: Option<string>,
    updatedDate: Option<string>,
    createdBy: Option<string>,
    updatedBy: Option<string>)

  /** `model/UsersModel` */
  datatype UsersModel = UsersModel(
    id: int,
    userName: Option<string>,
    email: Option<string>,
    password: Option<string>,
    accountNumber: Option<string>,
    dbstatus: Option<Status>,
    createdDate: Option<string>,
    updatedDate: Option<string>,
    createdBy: Option<string>,
    updatedBy: Option<string>)

  /** `model/ServiceModel` */
  datatype ServiceModel = ServiceModel(
    id: int,
    serviceName: Option<string>,
    description: Option<string>,
    durationDays: Option<string>,
    dbstatus: Option<Status>,
    createdDate: Option<LocalDate>,
    updatedDate: Option<LocalDate>,
    createdBy: Option<string>,
    updatedBy: Option<string>)
}

=== FILE: enums.dfy ===
/** `enums/Status`: the record-level ACTIVE/INACTIVE flag, serialised to JSON
    as "Active"/"InActive" and read back case-insensitively by name. */
module StatusEnum {
  import opened Wrappers
  import opened Errors
  import opened Chars

  datatype Status = ACTIVE | INACTIVE

  /** `Status.name()` (and `toString()`) */
  function StatusName(s: Status): string {
    match s
    case ACTIVE => "ACTIVE"
    case INACTIVE => "INACTIVE"
  }

  /** `getDbStatus()`, the `@JsonValue` form. */
  function GetDbStatus(s: Status): (v: string)
    ensures SameIgnoringCase(v, StatusName(s))
  {
    match s
    case ACTIVE => "Active"
    case INACTIVE => "InActive"
  }

  /** `Status.fromString`, the `@JsonCreator`: the first constant, in
      declaration order, whose name equals the text ignoring case. */
  function StatusFromString(text: string): (r: Result<Status, Error>)
    ensures r.Ok? <==> exists s: Status :: SameIgnoringCase(text, StatusName(s))
    ensures r.Ok? ==> SameIgnoringCase(text, StatusName(r.value))
    ensures r.Err? ==> r.error == IllegalArgument("No enum constant found for dbStatus: " + text)
  {
    if SameIgnoringCase(text, StatusName(Status.ACTIVE)) then Ok(Status.ACTIVE)
    else if SameIgnoringCase(text, StatusName(Status.INACTIVE)) then Ok(Status.INACTIVE)
    else Err(IllegalArgument("No enum constant found for dbStatus: " + text))
  }

  /** `String.valueOf(status)`: the constant's name, or "null", which no
      constant is called. */
  function StatusText(s: Option<Status>): (t: string)
    ensures t == "null" <==> s.None?
    ensures s.Some? ==> t == StatusName(s.value)
  {
    match s
    case None => "null"
    case Some(v) => StatusName(v)
  }

  /** JSON round trip: `fromString(getDbStatus(s)) == s`. */
  lemma StatusJsonRoundTrip(s: Status)
    ensures StatusFromString(GetDbStatus(s)) == Ok(s)
  {
  }

  /** `fromString(String.valueOf(s)) == s`, and a null status (the text
      "null") is rejected. */
  lemma StatusTextRoundTrip(s: Option<Status>)
    ensures s.Some? ==> StatusFromString(StatusText(s)) == Ok(s.value)
    ensures s.None? ==> StatusFromString(StatusText(s)).Err?
  {
    if s.None? {
      assert UpperFold('n') != UpperFold('A');
    }
  }

  /** The JSON names of the two constants differ. */
  lemma GetDbStatusInjective(a: Status, b: Status)
    ensures GetDbStatus(a) == GetDbStatus(b) ==> a == b
  {
  }

  /** Look-up ignores case, including the non-ASCII letters Java folds onto
      ASCII ones. */
  lemma StatusFromStringIgnoresCase()
    ensures StatusFromString("active") == Ok(Status.ACTIVE)
    ensures StatusFromString("inActive") == Ok(Status.INACTIVE)
    ensures StatusFromString("act\U{0131}ve") == Ok(Status.ACTIVE)
    ensures StatusFromString("enabled").Err?
  {
    assert UpperFold('e') != UpperFold('A');
  }
}

/** `enums/SubscriptionStatus`: the richer lifecycle status, whose JSON form
    is its own name. */
module SubscriptionStatusEnum {
  import opened Wrappers
  import opened Errors
  import opened Chars

  datatype SubscriptionStatus = ACTIVE | INACTIVE | CANCELLED | SUSPENDED

  /** The constants in declaration order. */
  const SubscriptionStatusValues: seq<SubscriptionStatus> :=
    [SubscriptionStatus.ACTIVE, SubscriptionStatus.INACTIVE, SubscriptionStatus.CANCELLED, SubscriptionStatus.SUSPENDED]

  /** `SubscriptionStatus.name()` */
  function SubscriptionStatusName(s: SubscriptionStatus): string {
    match s
    case ACTIVE => "ACTIVE"
    case INACTIVE => "INACTIVE"
    case CANCELLED => "CANCELLED"
    case SUSPENDED => "SUSPENDED"
  }

  /** `getStatus()`, the `@JsonValue` form: the string each constant was
      declared with, which is its own name. */
  function GetStatus(s: SubscriptionStatus): (v: string)
    ensures v == SubscriptionStatusName(s)
  {
    match s
    case ACTIVE => "ACTIVE"
    case INACTIVE => "INACTIVE"
    case CANCELLED => "CANCELLED"
    case SUSPENDED => "SUSPENDED"
  }

  /** `SubscriptionStatus.fromString`: the first constant whose name equals the
      text ignoring case. */
  function SubscriptionStatusFromString(text: string): (r: Result<SubscriptionStatus, Error>)
    ensures r.Ok? <==> exists s: SubscriptionStatus :: SameIgnoringCase(text, SubscriptionStatusName(s))
    ensures r.Ok? ==> SameIgnoringCase(text, SubscriptionStatusName(r.value))
    ensures r.Err? ==> r.error == IllegalArgument("No enum constant found for status: " + text)
  {
    var r := FirstMatch(SubscriptionStatusValues, text);
    assert r.Err? ==> forall s: SubscriptionStatus :: !SameIgnoringCase(text, SubscriptionStatusName(s)) by {
      forall s: SubscriptionStatus
        ensures r.Err? ==> !SameIgnoringCase(text, SubscriptionStatusName(s))
      {
        var i := IndexOf(s);
      }
    }
    r
  }

  /** The position of a constant in declaration order (`ordinal()`). */
  function IndexOf(s: SubscriptionStatus): (i: nat)
    ensures i < |SubscriptionStatusValues| && SubscriptionStatusValues[i] == s
  {
    match s
    case ACTIVE => 0
    case INACTIVE => 1
    case CANCELLED => 2
    case SUSPENDED => 3
  }

  /** The loop of `fromString` over the remaining constants. */
  function FirstMatch(values: seq<SubscriptionStatus>, text: string): (r: Result<SubscriptionStatus, Error>)
    ensures r.Ok? ==> r.value in values && SameIgnoringCase(text, SubscriptionStatusName(r.value))
    ensures r.Err? ==> forall i :: 0 <= i < |values| ==> !SameIgnoringCase(text, SubscriptionStatusName(values[i]))
    ensures r.Err? ==> r.error == IllegalArgument("No enum constant found for status: " + text)
  {
    if |values| == 0 then Err(IllegalArgument("No enum constant found for status: " + text))
    else if SameIgnoringCase(text, SubscriptionStatusName(values[0])) then Ok(values[0])
    else FirstMatch(values[1..], text)
  }

  /** `String.valueOf(status)`: the constant's name, or "null", which no
      constant is called. */
  function SubscriptionStatusText(s: Option<SubscriptionStatus>): (t: string)
    ensures t == "null" <==> s.None?
    ensures s.Some? ==> t == SubscriptionStatusName(s.value)
  {
    match s
    case None => "null"
    case Some(v) => SubscriptionStatusName(v)
  }

  /** There are exactly four constants, with four distinct names. */
  lemma SubscriptionStatusConstants(s: SubscriptionStatus, t: SubscriptionStatus)
    ensures s in SubscriptionStatusValues && |SubscriptionStatusValues| == 4
    ensures SubscriptionStatusName(s) == SubscriptionStatusName(t) ==> s == t
  {
  }

  /** JSON round trip: `fromString(getStatus(s)) == s` for every constant. */
  lemma SubscriptionStatusJsonRoundTrip(s: SubscriptionStatus)
    ensures SubscriptionStatusFromString(GetStatus(s)) == Ok(s)
  {
    assert UpperFold('I') != UpperFold('A');
    assert UpperFold('C') != UpperFold('S');
  }

  /** `fromString(String.valueOf(s)) == s`, and "null" is rejected. */
  lemma SubscriptionStatusTextRoundTrip(s: Option<SubscriptionStatus>)
    ensures s.Some? ==> SubscriptionStatusFromString(SubscriptionStatusText(s)) == Ok(s.value)
    ensures s.None? ==> SubscriptionStatusFromString(SubscriptionStatusText(s)).Err?
  {
    if s.Some? {
      SubscriptionStatusJsonRoundTrip(s.value);
    } else {
      assert UpperFold('n') != UpperFold('A');
      assert UpperFold('n') != UpperFold('I');
      assert UpperFold('n') != UpperFold('C');
      assert UpperFold('n') != UpperFold('S');
    }
  }
}

=== FILE: errors.dfy ===
/** The exceptions the core throws, as values. Each constructor names the Java
    exception class; the message is kept where callers can observe it (the
    interceptor copies a `BusinessValidationException` message into the
    401 response). */
module Errors {

  datatype Error =
    /** `BusinessValidationException` */
    | BusinessValidation(message: string)
    /** `DuplicateSubscriptionException` */
    | DuplicateSubscription(message: string)
    /** `InvalidDateFormatException` */
    | InvalidDateFormat(message: string)
    /** `SubscriptionNotFoundException` */
    | SubscriptionNotFound(message: string)
    /** `IllegalArgumentException` thrown by the enum look-ups */
    | IllegalArgument(message: string)
    /** `NumberFormatException` thrown by `Integer.parseInt` / `Integer.valueOf` */
    | NumberFormat
    /** `NullPointerException`, e.g. parsing a null date string */
    | NullPointer
    /** Spring Data's `IncorrectResultSizeDataAccessException`: a query that
        returns one optional row matched several */
    | IncorrectResultSize
}

=== FILE: interceptor.dfy ===
/** `interceptor/AuthTokenInterceptor`: the gate in front of the protected
    endpoints, as a decision over the `Authorization` header and the token
    validator's outcome. The validator is a parameter: an `Err` carrying
    `BusinessValidation` stands for a `BusinessValidationException`, any
    other `Err` for any other exception. */
module AuthTokenInterceptor {
  import opened Wrappers
  import opened Errors
  import opened DateUtils
  import opened Entities
  import opened StatusEnum
  import opened Repositories
  import Impl = AuthTokenServiceImpl

  const BearerPrefix: string := "Bearer "
  const Unauthorized: int := 401
  const InternalServerError: int := 500
  const InternalErrorMessage: string := "An error occurred while processing the request"

  /** `preHandle`'s answer: let the request through, or send an error. */
  datatype Decision = Proceed | SendError(status: int, message: string)

  /** `preHandle(request, ...)` for the header value `header`. */
  function PreHandle(header: Option<string>, isUserValid: string -> Result<bool, Error>): (d: Decision)
    ensures d == Proceed <==>
      header.Some? && BearerPrefix <= header.value && isUserValid(header.value[|BearerPrefix|..]) == Ok(true)
    ensures d.SendError? ==> d.status == Unauthorized || d.status == InternalServerError
    ensures header.None? || !(BearerPrefix <= header.value) ==>
      d == SendError(Unauthorized, "Missing or invalid Authorization header")
    ensures header.Some? && BearerPrefix <= header.value ==>
      var outcome := isUserValid(header.value[|BearerPrefix|..]);
      && (outcome == Ok(false) ==> d == SendError(Unauthorized, "Unauthorized: Invalid token"))
      && (outcome.Err? && outcome.error.BusinessValidation? ==> d == SendError(Unauthorized, outcome.error.message))
      && (d.SendError? && d.status == InternalServerError <==> outcome.Err? && !outcome.error.BusinessValidation?)
      && (outcome.Err? && !outcome.error.BusinessValidation? ==> d == SendError(InternalServerError, InternalErrorMessage))
  {
    if header.None? || !(BearerPrefix <= header.value) then
      SendError(Unauthorized, "Missing or invalid Authorization header")
    else
      match isUserValid(header.value[7..])
      case Ok(valid) =>
        if valid then Proceed else SendError(Unauthorized, "Unauthorized: Invalid token")
      case Err(e) =>
        if e.BusinessValidation? then SendError(Unauthorized, e.message)
        else SendError(InternalServerError, InternalErrorMessage)
  }

  /** The validator sees exactly the text after "Bearer ", and a header
      without that case-sensitive prefix never reaches it. */
  lemma ValidatorSeesBearerToken(t: string, v: string -> Result<bool, Error>, w: string -> Result<bool, Error>)
    ensures PreHandle(Some(BearerPrefix + t), v) == Proceed <==> v(t) == Ok(true)
    ensures PreHandle(Some("bearer " + t), v) == PreHandle(Some("bearer " + t), w)
    ensures PreHandle(None, v) == SendError(Unauthorized, "Missing or invalid Authorization header")
  {
    assert (BearerPrefix + t)[|BearerPrefix|..] == t;
    assert !(BearerPrefix <= "bearer " + t) by {
      assert ("bearer " + t)[0] != BearerPrefix[0];
    }
  }

  /** Behind the interceptor, with the token service's `isUserValid`, a
      request gets through exactly when it presents, after "Bearer ", the
      string of an ACTIVE token, not expired before `today`, whose owner
      exists. */
  lemma GateWithTokenService(users: seq<User>, s: Impl.TokenStore, today: LocalDate, t: string)
    requires Impl.TokensDistinct(s.tokens)
    ensures PreHandle(Some(BearerPrefix + t), k => Impl.IsUserValid(users, s, k, today)) == Proceed <==>
      exists i :: 0 <= i < |s.tokens| && s.tokens[i].token == t && s.tokens[i].dbstatus == ACTIVE
        && !IsAfter(today, s.tokens[i].expireDate) && FindUserById(users, s.tokens[i].userId).Some?
  {
    ValidatorSeesBearerToken(t, k => Impl.IsUserValid(users, s, k, today), k => Impl.IsUserValid(users, s, k, today));
    Impl.IsUserValidAccepts(users, s, t, today);
  }
}

=== FILE: legacy.dfy ===
/** `service/servicesImpl/AuthTokenService`, the older token service: an
    exact-name login, the same issuing policy written out by hand, and a
    validity check that looks only at whether the token and its owner exist. */
module LegacyAuthTokenService {
  import opened Wrappers
  import opened Errors
  import opened DateUtils
  import opened StatusEnum
  import opened Entities
  import opened Repositories
  import AuthTokenMapper
  import Impl = AuthTokenServiceImpl

  /** The record built field by field in `generateToken`: the calendar days of
      `now` and of `now` plus two minutes, ACTIVE, stamped with the user's
      name. */
  function NewToken(user: User, uuid: string, now: LocalDateTime, id: int): (t: AuthToken)
    ensures t == AuthTokenMapper.ToEntity(user, uuid, now).(id := id)
  {
    AuthToken(
      id,
      user.id,
      uuid,
      LocalDateTimeToLocalDate(now),
      LocalDateTimeToLocalDate(PlusMinutes(now, AuthTokenMapper.TokenValidityMinutes)),
      ACTIVE,
      LocalDateTimeToLocalDate(now),
      LocalDateTimeToLocalDate(now),
      user.userName,
      user.userName)
  }

  /** `generateToken(user)`: deactivate the user's ACTIVE tokens, save the
      new record, return its string. It issues exactly what the newer service
      issues. */
  function GenerateToken(s: Impl.TokenStore, user: User, uuid: string, now: LocalDateTime): (r: (Impl.TokenStore, string))
    ensures r == Impl.GenerateToken(s, user, uuid, now)
    ensures Impl.ActiveCount(r.0.tokens, user.id) == 1
  {
    var kept := Impl.DeactivateAll(s.tokens, user.id);
    (Impl.TokenStore(kept + [NewToken(user, uuid, now, s.nextId)], s.nextId + 1), uuid)
  }

  /** `authenticateUser(userName, password)`: the user whose name is exactly
      `userName`, a matching password, then a new token. */
  function AuthenticateUser(users: seq<User>, s: Impl.TokenStore, userName: string, password: Option<string>,
                            uuid: string, now: LocalDateTime): (r: Result<(Impl.TokenStore, string), Error>)
    ensures r == Err(BusinessValidation("User not found")) <==>
      forall u :: u in users ==> u.userName != Some(userName)
    ensures r == Err(BusinessValidation("Invalid password")) <==>
      exists u: User :: FindUserByUserName(users, userName) == Ok(Some(u)) && password.Some? && u.password != password
    ensures r.Ok? <==>
      exists u: User :: FindUserByUserName(users, userName) == Ok(Some(u)) && password.Some? && u.password == password
    ensures FindUserByUserName(users, userName).Err? ==> r == Err(FindUserByUserName(users, userName).error)
    ensures (exists u: User :: FindUserByUserName(users, userName) == Ok(Some(u))) && password.None? ==> r == Err(NullPointer)
    ensures r.Ok? ==> r.value.1 == uuid
    ensures r.Ok? ==> exists u :: u in users && u.userName == Some(userName) && r.value == GenerateToken(s, u, uuid, now)
  {
    var found :- FindUserByUserName(users, userName);
    if found.None? then Err(BusinessValidation("User not found"))
    else if password.None? then Err(NullPointer)
    else if found.value.password != password then Err(BusinessValidation("Invalid password"))
    else Ok(GenerateToken(s, found.value, uuid, now))
  }

  /** `isUserValid(token)`: true when the token's row and its owner exist,
      whatever the row's status and expiry. */
  function IsUserValid(users: seq<User>, s: Impl.TokenStore, token: string): (r: Result<bool, Error>)
    ensures r.Ok? ==> r.value
    ensures r.Err? && FindTokenByToken(s.tokens, token).Ok? ==> r.error.BusinessValidation?
    ensures r == Err(BusinessValidation("Invalid token")) <==> forall t :: t in s.tokens ==> t.token != token
    ensures r.Ok? <==>
      && FindTokenByToken(s.tokens, token).Ok? && FindTokenByToken(s.tokens, token).value.Some?
      && FindUserById(users, FindTokenByToken(s.tokens, token).value.value.userId).Some?
    ensures r == Err(BusinessValidation("User not found")) <==>
      && FindTokenByToken(s.tokens, token).Ok? && FindTokenByToken(s.tokens, token).value.Some?
      && FindUserById(users, FindTokenByToken(s.tokens, token).value.value.userId).None?
    ensures FindTokenByToken(s.tokens, token).Err? ==> r == Err(FindTokenByToken(s.tokens, token).error)
  {
    var found :- FindTokenByToken(s.tokens, token);
    if found.None? then Err(BusinessValidation("Invalid token"))
    else if FindUserById(users, found.value.userId).None? then Err(BusinessValidation("User not found"))
    else Ok(true)
  }

  /** Every token the newer service accepts, this one accepts too. */
  lemma NewerAcceptsLess(users: seq<User>, s: Impl.TokenStore, token: string, today: LocalDate)
    ensures Impl.IsUserValid(users, s, token, today) == Ok(true) ==> IsUserValid(users, s, token) == Ok(true)
  {
  }

  /** A deactivated or expired token whose owner exists still passes here but
      is refused by the newer service. */
  lemma AcceptsDeadTokens(users: seq<User>, s: Impl.TokenStore, i: int, today: LocalDate)
    requires Impl.TokensDistinct(s.tokens)
    requires 0 <= i < |s.tokens|
    requires s.tokens[i].dbstatus == INACTIVE || IsAfter(today, s.tokens[i].expireDate)
    requires FindUserById(users, s.tokens[i].userId).Some?
    ensures IsUserValid(users, s, s.tokens[i].token) == Ok(true)
    ensures Impl.IsUserValid(users, s, s.tokens[i].token, today) == Err(BusinessValidation(Impl.ExpiredMessage))
  {
    Impl.FindsRow(s.tokens, i);
  }

  /** The older login matches the name exactly, the newer one ignoring case:
      a user stored as "alice" logs in as "ALICE" only with the newer one. */
  lemma LoginNameCase(s: Impl.TokenStore, uuid: string, now: LocalDateTime)
    ensures
      var alice := User(1, Some("alice"), None, Some("Secret1!"), None, Some(ACTIVE), None, None, None, None);
      && AuthenticateUser([alice], s, "ALICE", Some("Secret1!"), uuid, now) == Err(BusinessValidation("User not found"))
      && Impl.AuthenticateUser([alice], s, "ALICE", Some("Secret1!"), uuid, now).Ok?
  {
    var alice := User(1, Some("alice"), None, Some("Secret1!"), None, Some(ACTIVE), None, None, None, None);
    assert NameMatchesIgnoringCase(alice, "ALICE");
  }
}

=== FILE: mappers.dfy ===
/** `mapper/UsersMapper`: copies the five user fields across; everything
    else keeps its Java default (0 or null). */
module UsersMapper {
  import opened Wrappers
  import opened Entities
  import opened Models

  /** The model a user entity becomes, then turns back into: the five copied
      fields kept, the id zero, the audit fields null. */
  function Carried(m: UsersModel): UsersModel {
    UsersModel(0, m.userName, m.email, m.password, m.accountNumber, m.dbstatus, None, None, None, None)
  }

  /** `toEntity` */
  function ToEntity(m: UsersModel): (u: User)
    ensures ToModel(u) == Carried(m)
    ensures u.id == 0 && u.createdDate.None? && u.createdBy.None?
  {
    User(0, m.userName, m.email, m.password, m.accountNumber, m.dbstatus, None, None, None, None)
  }

  /** `toModel` */
  function ToModel(u: User): (m: UsersModel)
    ensures m.id == u.id
    ensures m.createdDate.None? && m.updatedDate.None? && m.createdBy.None? && m.updatedBy.None?
  {
    UsersModel(u.id, u.userName, u.email, u.password, u.accountNumber, u.dbstatus, None, None, None, None)
  }

  /** Entity to model to entity keeps every copied field and loses the id and
      the audit fields. */
  lemma EntityRoundTrip(u: User)
    ensures ToEntity(ToModel(u)) == u.(id := 0, createdDate := None, updatedDate := None, createdBy := None, updatedBy := None)
  {
  }
}

/** `mapper/ServiceMapper`: copies the four service fields across. */
module ServiceMapper {
  import opened Wrappers
  import opened Entities
  import opened Models

  /** The model a service entity becomes, then turns back into. */
  function Carried(m: ServiceModel): ServiceModel {
    ServiceModel(0, m.serviceName, m.description, m.durationDays, m.dbstatus, None, None, None, None)
  }

  /** `toEntity` */
  function ToEntity(m: ServiceModel): (s: Service)
    ensures ToModel(s) == Carried(m)
    ensures s.id == 0 && s.createdDate.None? && s.createdBy.None?
  {
    Service(0, m.serviceName, m.description, m.durationDays, m.dbstatus, None, None, None, None)
  }

  /** `toModel` */
  function ToModel(s: Service): (m: ServiceModel)
    ensures m.id == s.id
    ensures m.createdDate.None? && m.updatedDate.None? && m.createdBy.None? && m.updatedBy.None?
  {
    ServiceModel(s.id, s.serviceName, s.description, s.durationDays, s.dbstatus, None, None, None, None)
  }

  /** Entity to model to entity keeps every copied field and loses the id and
      the audit fields. */
  lemma EntityRoundTrip(s: Service)
    ensures ToEntity(ToModel(s)) == s.(id := 0, createdDate := None, updatedDate := None, createdBy := None, updatedBy := None)
  {
  }
}

/** `mapper/SubscriptionMapper`: ids and dates are parsed from and printed
    to text. */
module SubscriptionMapper {
  import opened Wrappers
  import opened Errors
  import opened Decimal
  import opened DateUtils
  import opened StatusEnum
  import opened SubscriptionStatusEnum
  import opened Entities
  import opened Models

  /** `toEntity`: `Integer.parseInt` of the user id and the service id, the
      two dates through `convertToLocalDateTime`, and the two enums through
      their `fromString` of `String.valueOf(...)`, in that order; the first
      failure is the exception thrown. The id stays 0 and the audit fields
      null. */
  function ToEntity(m: SubscriptionModel): (r: Result<Subscription, Error>)
    ensures r.Ok? <==>
      && ParseNullableInt(m.userId).Ok?
      && ParseNullableInt(m.serviceId).Ok?
      && ConvertToLocalDate(m.startDate).Ok?
      && ConvertToLocalDate(m.endDate).Ok?
      && m.status.Some? && m.dbstatus.Some?
    ensures r.Ok? ==>
      && r.value.id == 0
      && r.value.userId == ParseNullableInt(m.userId).value
      && r.value.serviceId == ParseNullableInt(m.serviceId).value
      && r.value.startDate == AtStartOfDay(ConvertToLocalDate(m.startDate).value)
      && r.value.endDate == AtStartOfDay(ConvertToLocalDate(m.endDate).value)
      && r.value.status == m.status.value
      && r.value.dbstatus == m.dbstatus.value
      && r.value.createdDate.None? && r.value.updatedDate.None?
      && r.value.createdBy.None? && r.value.updatedBy.None?
    ensures ParseNullableInt(m.userId).Err? ==> r == Err(NumberFormat)
    ensures ParseNullableInt(m.userId).Ok? && ParseNullableInt(m.serviceId).Err? ==> r == Err(NumberFormat)
    ensures ParseNullableInt(m.userId).Ok? && ParseNullableInt(m.serviceId).Ok? && ConvertToLocalDate(m.startDate).Err?
      ==> r == Err(ConvertToLocalDate(m.startDate).error)
    ensures ParseNullableInt(m.userId).Ok? && ParseNullableInt(m.serviceId).Ok? && ConvertToLocalDate(m.startDate).Ok?
      && ConvertToLocalDate(m.endDate).Err?
      ==> r == Err(ConvertToLocalDate(m.endDate).error)
    ensures ParseNullableInt(m.userId).Ok? && ParseNullableInt(m.serviceId).Ok? && ConvertToLocalDate(m.startDate).Ok?
      && ConvertToLocalDate(m.endDate).Ok? && m.status.None?
      ==> r == Err(IllegalArgument("No enum constant found for status: null"))
    ensures ParseNullableInt(m.userId).Ok? && ParseNullableInt(m.serviceId).Ok? && ConvertToLocalDate(m.startDate).Ok?
      && ConvertToLocalDate(m.endDate).Ok? && m.status.Some? && m.dbstatus.None?
      ==> r == Err(IllegalArgument("No enum constant found for dbStatus: null"))
  {
    var userId :- ParseNullableInt(m.userId);
    var serviceId :- ParseNullableInt(m.serviceId);
    var start :- ConvertToLocalDateTime(m.startDate);
    var end :- ConvertToLocalDateTime(m.endDate);
    var enums :- EnumsOf(m);
    Ok(Subscription(0, userId, serviceId, start, end, enums.0, enums.1, None, None, None, None))
  }

  /** The two enums of `toEntity`, the status first, each through `fromString`
      of `String.valueOf(...)`: a null one fails with the look-up's message
      for "null". */
  function EnumsOf(m: SubscriptionModel): (r: Result<(SubscriptionStatus, Status), Error>)
    ensures r.Ok? <==> m.status.Some? && m.dbstatus.Some?
    ensures r.Ok? ==> r.value == (m.status.value, m.dbstatus.value)
    ensures m.status.None? ==> r == Err(IllegalArgument("No enum constant found for status: null"))
    ensures m.status.Some? && m.dbstatus.None? ==> r == Err(IllegalArgument("No enum constant found for dbStatus: null"))
  {
    StatusTextRoundTripBoth(m);
    assert "No enum constant found for status: " + "null" == "No enum constant found for status: null";
    assert "No enum constant found for dbStatus: " + "null" == "No enum constant found for dbStatus: null";
    var status :- SubscriptionStatusFromString(SubscriptionStatusText(m.status));
    var dbstatus :- StatusFromString(StatusText(m.dbstatus));
    Ok((status, dbstatus))
  }

  /** A present enum survives `String.valueOf` and `fromString`; a null one
      becomes "null", which no constant is called. */
  lemma StatusTextRoundTripBoth(m: SubscriptionModel)
    ensures SubscriptionStatusFromString(SubscriptionStatusText(m.status)).Ok? <==> m.status.Some?
    ensures m.status.Some? ==> SubscriptionStatusFromString(SubscriptionStatusText(m.status)).value == m.status.value
    ensures StatusFromString(StatusText(m.dbstatus)).Ok? <==> m.dbstatus.Some?
    ensures m.dbstatus.Some? ==> StatusFromString(StatusText(m.dbstatus)).value == m.dbstatus.value
  {
    SubscriptionStatusTextRoundTrip(m.status);
    StatusTextRoundTrip(m.dbstatus);
  }

  /** `toModel`: the ids as decimal text, the dates' calendar days as
      yyyyMMdd, the enums as they are; the audit fields are not copied. Each
      printed id is canonical and parses back to the `int`, and each printed
      date of years 1 to 9999 is canonical and converts back to its day. */
  function ToModel(e: Subscription): (m: SubscriptionModel)
    ensures m.id.Some? && m.userId.Some? && m.serviceId.Some? && m.startDate.Some? && m.endDate.Some?
    ensures CanonicalInt(m.id.value) && CanonicalInt(m.userId.value) && CanonicalInt(m.serviceId.value)
    ensures IntMin <= e.id <= IntMax ==> ParseInt(m.id.value) == Ok(e.id)
    ensures IntMin <= e.userId <= IntMax ==> ParseInt(m.userId.value) == Ok(e.userId)
    ensures IntMin <= e.serviceId <= IntMax ==> ParseInt(m.serviceId.value) == Ok(e.serviceId)
    ensures m.status == Some(e.status) && m.dbstatus == Some(e.dbstatus)
    ensures m.createdDate.None? && m.updatedDate.None? && m.createdBy.None? && m.updatedBy.None?
    ensures 1 <= e.startDate.date.year <= 9999 ==>
      IsCanonicalDate(m.startDate.value) && ConvertToLocalDate(m.startDate) == Ok(e.startDate.date)
    ensures 1 <= e.endDate.date.year <= 9999 ==>
      IsCanonicalDate(m.endDate.value) && ConvertToLocalDate(m.endDate) == Ok(e.endDate.date)
  {
    SubscriptionModel(
      Some(IntToString(e.id)),
      Some(IntToString(e.userId)),
      Some(IntToString(e.serviceId)),
      Some(LocalDateToString(LocalDateTimeToLocalDate(e.startDate))),
      Some(LocalDateToString(LocalDateTimeToLocalDate(e.endDate))),
      Some(e.status),
      Some(e.dbstatus),
      None, None, None, None)
  }

  /** Entity to model to entity: every 32-bit id and every date of years
      1-9999 survives, except that the time of day is reset to midnight, the
      id to 0 and the audit fields to null. */
  lemma EntityRoundTrip(e: Subscription)
    requires IntMin <= e.userId <= IntMax && IntMin <= e.serviceId <= IntMax
    requires 1 <= e.startDate.date.year <= 9999 && 1 <= e.endDate.date.year <= 9999
    ensures ToEntity(ToModel(e)) == Ok(e.(
      id := 0,
      startDate := AtStartOfDay(e.startDate.date),
      endDate := AtStartOfDay(e.endDate.date),
      createdDate := None, updatedDate := None, createdBy := None, updatedBy := None))
  {
  }

  /** Model to entity to model: the ids and dates come back as the text the
      client sent exactly when that text was canonical (no sign, no leading
      zero; the date not clamped), and the enums come back unchanged. */
  lemma ModelRoundTrip(m: SubscriptionModel)
    requires ToEntity(m).Ok?
    ensures ToModel(ToEntity(m).value).userId == m.userId <==> CanonicalInt(m.userId.value)
    ensures ToModel(ToEntity(m).value).serviceId == m.serviceId <==> CanonicalInt(m.serviceId.value)
    ensures ToModel(ToEntity(m).value).startDate == m.startDate <==> IsCanonicalDate(m.startDate.value)
    ensures ToModel(ToEntity(m).value).endDate == m.endDate <==> IsCanonicalDate(m.endDate.value)
    ensures ToModel(ToEntity(m).value).status == m.status
    ensures ToModel(ToEntity(m).value).dbstatus == m.dbstatus
  {
    IntToStringOfParseInt(m.userId.value);
    IntToStringOfParseInt(m.serviceId.value);
    LocalDateToStringOfParse(m.startDate.value);
    LocalDateToStringOfParse(m.endDate.value);
  }
}

/** `mapper/AuthTokenMapper`: the record of a freshly issued token. */
module AuthTokenMapper {
  import opened Wrappers
  import opened DateUtils
  import opened StatusEnum
  import opened Entities

  /** `plusMinutes(2)`: how long a token is meant to last. */
  const TokenValidityMinutes: nat := 2

  /** `toEntity(user, token, now)`. The date columns of the token entity are
      `LocalDate`s while the mapper passes them `LocalDateTime`s, which Java
      does not convert implicitly; the model reads the calendar day of the
      clock reading, as the older service's `LocalDate.from` does. So the
      token is issued today and expires today, or tomorrow when it is issued
      in the last two minutes of the day. It is ACTIVE and stamped with the
      user's name. */
  function ToEntity(user: User, token: string, now: LocalDateTime): (t: AuthToken)
    ensures t.userId == user.id && t.token == token && t.dbstatus == ACTIVE
    ensures t.issuedDate == now.date && t.createdDate == now.date && t.updatedDate == now.date
    ensures t.expireDate == now.date <==> now.secondOfDay + 60 * TokenValidityMinutes < SecondsPerDay
    ensures t.expireDate == now.date || t.expireDate == NextDay(now.date)
    ensures t.createdBy == user.userName && t.updatedBy == user.userName
  {
    AuthToken(
      0,
      user.id,
      token,
      now.date,
      PlusMinutes(now, TokenValidityMinutes).date,
      ACTIVE,
      now.date,
      now.date,
      user.userName,
      user.userName)
  }
}

=== FILE: repositories.dfy ===
/** The Spring Data repositories as queries over in-memory tables. A derived
    query means what its method name says; a query returning `Optional`
    fails when more than one row matches. */
module Repositories {
  import opened Wrappers
  import opened Errors
  import opened Chars
  import opened StatusEnum
  import opened Entities

  /** The rows satisfying `p`, in table order. */
  function Filter<T(!new)>(s: seq<T>, p: T -> bool): (r: seq<T>)
    ensures |r| <= |s|
    ensures forall x :: x in r <==> x in s && p(x)
    ensures (forall i :: 0 <= i < |s| ==> !p(s[i])) ==> r == []
  {
    if |s| == 0 then []
    else
      var rest := Filter(s[1..], p);
      assert forall x :: x in s <==> x == s[0] || x in s[1..];
      if p(s[0]) then [s[0]] + rest else rest
  }

  /** A filter that at most one position satisfies keeps at most one row. */
  lemma {:induction false} FilterAtMostOne<T(!new)>(s: seq<T>, p: T -> bool)
    requires forall i, j :: 0 <= i < |s| && 0 <= j < |s| && p(s[i]) && p(s[j]) ==> i == j
    ensures |Filter(s, p)| <= 1
  {
    if |s| > 0 {
      var tail := s[1..];
      assert forall i, j :: 0 <= i < |tail| && 0 <= j < |tail| && p(tail[i]) && p(tail[j]) ==> i == j by {
        forall i, j | 0 <= i < |tail| && 0 <= j < |tail| && p(tail[i]) && p(tail[j])
          ensures i == j
        {
          assert s[i + 1] == tail[i] && s[j + 1] == tail[j];
        }
      }
      FilterAtMostOne(tail, p);
      if p(s[0]) {
        assert forall k :: 0 <= k < |tail| ==> !p(tail[k]) by {
          forall k | 0 <= k < |tail| ensures !p(tail[k]) {
            assert s[k + 1] == tail[k];
          }
        }
      }
    }
  }

  /** The `Optional` a single-result query returns: empty for no row, the row
      for one, `IncorrectResultSizeDataAccessException` for more. */
  function SingleResult<T>(rows: seq<T>): (r: Result<Option<T>, Error>)
    ensures r.Ok? <==> |rows| <= 1
    ensures r.Ok? && r.value.Some? <==> |rows| == 1
    ensures r.Ok? && r.value.Some? ==> r.value.value == rows[0]
    ensures r.Err? ==> r.error == IncorrectResultSize
  {
    if |rows| == 0 then Ok(None)
    else if |rows| == 1 then Ok(Some(rows[0]))
    else Err(IncorrectResultSize)
  }

  // ---------------------------------------------------------------------------
  // AuthTokenRepository

  /** `findByUserIdAndDbstatus` */
  function FindTokensByUserIdAndDbstatus(ts: seq<AuthToken>, userId: int, st: Status): (r: seq<AuthToken>)
    ensures forall t :: t in r <==> t in ts && t.userId == userId && t.dbstatus == st
  {
    Filter(ts, (t: AuthToken) => t.userId == userId && t.dbstatus == st)
  }

  /** `findByToken` */
  function FindTokenByToken(ts: seq<AuthToken>, token: string): (r: Result<Option<AuthToken>, Error>)
    ensures r.Ok? && r.value.Some? ==> r.value.value in ts && r.value.value.token == token
    ensures r.Ok? && r.value.None? <==> forall t :: t in ts ==> t.token != token
    ensures r.Err? ==> r.error == IncorrectResultSize
    ensures (forall i, j :: 0 <= i < j < |ts| ==> ts[i].token != ts[j].token) ==> r.Ok?
  {
    var p := (t: AuthToken) => t.token == token;
    var rows := Filter(ts, p);
    assert (forall i, j :: 0 <= i < j < |ts| ==> ts[i].token != ts[j].token) ==> |rows| <= 1 by {
      if forall i, j :: 0 <= i < j < |ts| ==> ts[i].token != ts[j].token {
        FilterAtMostOne(ts, p);
      }
    }
    assert forall t :: t in ts && t.token == token ==> t in rows;
    assert |rows| > 0 ==> rows[0] in rows;
    SingleResult(rows)
  }

  // ---------------------------------------------------------------------------
  // UserRepository

  /** `findById`: the row with that primary key. */
  function FindUserById(users: seq<User>, id: int): (r: Option<User>)
    ensures r.Some? ==> r.value in users && r.value.id == id
    ensures r.None? <==> forall u :: u in users ==> u.id != id
  {
    if |users| == 0 then None
    else if users[0].id == id then Some(users[0])
    else FindUserById(users[1..], id)
  }

  /** `existsById` */
  function ExistsUserById(users: seq<User>, id: int): (b: bool)
    ensures b <==> exists u :: u in users && u.id == id
  {
    FindUserById(users, id).Some?
  }

  /** `findByuserName`: the user whose name is exactly `name`. */
  function FindUserByUserName(users: seq<User>, name: string): (r: Result<Option<User>, Error>)
    ensures r.Ok? && r.value.Some? ==> r.value.value in users && r.value.value.userName == Some(name)
    ensures r.Ok? && r.value.None? <==> forall u :: u in users ==> u.userName != Some(name)
    ensures r.Err? ==> r.error == IncorrectResultSize
  {
    var rows := Filter(users, (u: User) => u.userName == Some(name));
    assert forall u :: u in users && u.userName == Some(name) ==> u in rows;
    assert |rows| > 0 ==> rows[0] in rows;
    SingleResult(rows)
  }

  /** A user's name equals `name` when case is ignored. */
  predicate NameMatchesIgnoringCase(u: User, name: string) {
    u.userName.Some? && SameIgnoringCase(u.userName.value, name)
  }

  /** `findByUserNameIgnoreCase`, which `AuthTokenServiceImpl` calls although
      `UserRepository` does not declare it. */
  function FindUserByUserNameIgnoreCase(users: seq<User>, name: string): (r: Result<Option<User>, Error>)
    ensures r.Ok? && r.value.Some? ==> r.value.value in users && NameMatchesIgnoringCase(r.value.value, name)
    ensures r.Ok? && r.value.None? <==> forall u :: u in users ==> !NameMatchesIgnoringCase(u, name)
    ensures r.Err? ==> r.error == IncorrectResultSize
  {
    var rows := Filter(users, (u: User) => NameMatchesIgnoringCase(u, name));
    assert forall u :: u in users && NameMatchesIgnoringCase(u, name) ==> u in rows;
    assert |rows| > 0 ==> rows[0] in rows;
    SingleResult(rows)
  }

  // ---------------------------------------------------------------------------
  // SubscriptionRepository

  /** `findByUserIdAndDbstatus`; a null status matches no row, since every
      stored subscription has one. */
  function FindSubscriptionsByUserIdAndDbstatus(rows: seq<Subscription>, userId: int, st: Option<Status>): (r: seq<Subscription>)
    ensures forall x :: x in r <==> x in rows && x.userId == userId && Some(x.dbstatus) == st
  {
    Filter(rows, (x: Subscription) => x.userId == userId && Some(x.dbstatus) == st)
  }

  /** `findByUserId` */
  function FindSubscriptionsByUserId(rows: seq<Subscription>, userId: int): (r: seq<Subscription>)
    ensures forall x :: x in r <==> x in rows && x.userId == userId
  {
    Filter(rows, (x: Subscription) => x.userId == userId)
  }

  /** `existsByUserIdAndServiceIdAndDbstatus`, which `SubscriptionServiceImpl`
      calls although `SubscriptionRepository` does not declare it: a derived
      `exists` query, true when its filter keeps a row. */
  predicate ExistsByUserIdAndServiceIdAndDbstatus(rows: seq<Subscription>, userId: int, serviceId: int, st: Status): (b: bool)
    ensures b <==> exists i :: 0 <= i < |rows| && rows[i].userId == userId && rows[i].serviceId == serviceId && rows[i].dbstatus == st
  {
    var kept := Filter(rows, (x: Subscription) => x.userId == userId && x.serviceId == serviceId && x.dbstatus == st);
    assert |kept| > 0 <==> exists i :: 0 <= i < |rows| && rows[i].userId == userId && rows[i].serviceId == serviceId && rows[i].dbstatus == st by {
      if |kept| > 0 {
        assert kept[0] in kept;
        var k :| 0 <= k < |rows| && rows[k] == kept[0];
      }
      if i :| 0 <= i < |rows| && rows[i].userId == userId && rows[i].serviceId == serviceId && rows[i].dbstatus == st {
        assert rows[i] in rows;
        assert rows[i] in kept;
      }
    }
    |kept| > 0
  }

  /** `findById`: the position of the row with that primary key. */
  function FindSubscriptionIndex(rows: seq<Subscription>, id: int): (r: Option<nat>)
    ensures r.Some? ==> r.value < |rows| && rows[r.value].id == id
    ensures r.Some? ==> forall i :: 0 <= i < r.value ==> rows[i].id != id
    ensures r.None? <==> forall i :: 0 <= i < |rows| ==> rows[i].id != id
  {
    if |rows| == 0 then None
    else if rows[0].id == id then Some(0)
    else
      var r := FindSubscriptionIndex(rows[1..], id);
      if r.None? then None else Some(r.value + 1)
  }
}

=== FILE: subscriptions.dfy ===
/** `service/servicesImpl/SubscriptionServiceImpl`: creating, updating,
    cancelling and listing subscriptions. The `subscription` table is a
    sequence of records; the clock readings (`LocalDate.now()` as `today`,
    `LocalDateTime.now()` as `now`) are parameters. An operation that fails
    returns no table, so a failure never changes the tables. */
module SubscriptionServiceImpl {
  import opened Wrappers
  import opened Errors
  import opened Decimal
  import opened DateUtils
  import opened StatusEnum
  import opened SubscriptionStatusEnum
  import opened Entities
  import opened Models
  import opened Repositories
  import SubscriptionMapper

  /** The `subscription` table and the next value of its IDENTITY column. */
  datatype SubscriptionStore = SubscriptionStore(records: seq<Subscription>, nextId: int)

  /** Primary keys are distinct and below the IDENTITY counter. */
  predicate IdsBelow(s: SubscriptionStore) {
    && (forall i :: 0 <= i < |s.records| ==> s.records[i].id < s.nextId)
    && (forall i, j :: 0 <= i < j < |s.records| ==> s.records[i].id != s.records[j].id)
  }

  /** Whether row `x` is an ACTIVE subscription of `userId` to `serviceId`. */
  predicate ActiveFor(x: Subscription, userId: int, serviceId: int) {
    x.dbstatus == Status.ACTIVE && x.userId == userId && x.serviceId == serviceId
  }

  /** At most one ACTIVE subscription per (user, service). */
  predicate UniqueActive(rows: seq<Subscription>) {
    forall i, j :: 0 <= i < |rows| && 0 <= j < |rows| && ActiveFor(rows[i], rows[j].userId, rows[j].serviceId) && rows[j].dbstatus == Status.ACTIVE
      ==> i == j
  }

  /** The table's invariant. */
  predicate Valid(s: SubscriptionStore) {
    IdsBelow(s) && UniqueActive(s.records)
  }

  const DuplicateMessage: string := "User already has an active subscription for this service."
  const InactiveStatusMessage: string := "Cannot create a subscription with an inactive status."
  const InvalidStatusMessage: string := "Invalid subscription status. Must be 'ACTIVE'."
  const StartDateNullMessage: string := "Start date must not be null."
  const StartDateFormatMessage: string := "Invalid date format provided. Please use 'yyyyMMdd'."
  const StartDatePastMessage: string := "Start date must not be in the past."
  const InactiveQueryMessage: string := " subscriptions as the status is inactive."
  const SystemUser: string := "system"
  const AdminUser: string := "Admin"

  /** `isValidDbStatus`: only ACTIVE is a status a subscription may be
      created with; null is not. */
  function IsValidDbStatus(st: Option<Status>): (b: bool)
    ensures b <==> st.Some? && st.value == Status.ACTIVE
    ensures st.None? ==> !b
  {
    st == Some(Status.ACTIVE)
  }

  /** `validateSubscriptionDates(startDate)`: the start date must be present,
      parse as yyyyMMdd, and not lie before `today`. The parsed date is
      returned. The "past" exception is taken not to be a
      `DateTimeParseException`, so the format handler lets it through. */
  function ValidateSubscriptionDates(startDate: Option<string>, today: LocalDate): (r: Result<LocalDate, Error>)
    ensures startDate.None? ==> r == Err(InvalidDateFormat(StartDateNullMessage))
    ensures startDate.Some? && ParseYyyyMmDd(startDate.value).None? ==> r == Err(InvalidDateFormat(StartDateFormatMessage))
    ensures startDate.Some? && ParseYyyyMmDd(startDate.value).Some? && IsBefore(ParseYyyyMmDd(startDate.value).value, today)
      ==> r == Err(InvalidDateFormat(StartDatePastMessage))
    ensures r.Ok? <==> startDate.Some? && ParseYyyyMmDd(startDate.value).Some? && !IsBefore(ParseYyyyMmDd(startDate.value).value, today)
    ensures r.Ok? ==> ConvertToLocalDate(startDate) == Ok(r.value) && !IsBefore(r.value, today)
  {
    if startDate.None? then Err(InvalidDateFormat(StartDateNullMessage))
    else
      var parsed := ParseYyyyMmDd(startDate.value);
      if parsed.None? then Err(InvalidDateFormat(StartDateFormatMessage))
      else if IsBefore(parsed.value, today) then Err(InvalidDateFormat(StartDatePastMessage))
      else Ok(parsed.value)
  }

  /** `checkActiveSubscription(userId, serviceId)`: whether the user holds an
      ACTIVE subscription to the service; the service id is parsed first. */
  function CheckActiveSubscription(s: SubscriptionStore, userId: int, serviceId: Option<string>): (r: Result<bool, Error>)
    ensures r.Err? <==> ParseNullableInt(serviceId).Err?
    ensures r.Err? ==> r.error == NumberFormat
    ensures r.Ok? ==> (r.value <==> exists i :: 0 <= i < |s.records| && ActiveFor(s.records[i], userId, ParseNullableInt(serviceId).value))
  {
    var sid :- ParseNullableInt(serviceId);
    Ok(ExistsByUserIdAndServiceIdAndDbstatus(s.records, userId, sid, Status.ACTIVE))
  }

  /** The `createdBy` a new subscription gets: the caller's, unless it is null
      or empty. */
  function CreatedByOrSystem(c: Option<string>): (r: string)
    ensures |r| > 0
    ensures c.Some? && |c.value| > 0 ==> r == c.value
    ensures c.None? || |c.value| == 0 ==> r == SystemUser
  {
    if c.Some? && |c.value| > 0 then c.value else SystemUser
  }

  /** The checks `createSubscription` makes before it looks at the dates: the
      service id and the user id parse, the request is ACTIVE, and the user
      holds no ACTIVE subscription to the service yet. */
  predicate AdmitsNew(s: SubscriptionStore, m: SubscriptionModel) {
    && ParseNullableInt(m.serviceId).Ok?
    && m.dbstatus == Some(Status.ACTIVE)
    && ParseNullableInt(m.userId).Ok?
    && !ExistsByUserIdAndServiceIdAndDbstatus(s.records, ParseNullableInt(m.userId).value, ParseNullableInt(m.serviceId).value, Status.ACTIVE)
  }

  /** `createSubscription(model)`. In order: the service id is parsed; an
      ACTIVE request is refused when the user already holds an ACTIVE
      subscription to the service, an INACTIVE or null one always; the start
      date is validated; the mapper converts the model (so the end date must
      still parse and the status must be present); the end date becomes
      `now`, the audit fields are stamped, and the record is saved under the
      next id. The answer is the saved record as a model. */
  function CreateSubscription(s: SubscriptionStore, m: SubscriptionModel, today: LocalDate, now: LocalDateTime)
    : (r: Result<(SubscriptionStore, SubscriptionModel), Error>)
    ensures ParseNullableInt(m.serviceId).Err? ==> r == Err(NumberFormat)
    ensures ParseNullableInt(m.serviceId).Ok? && m.dbstatus == Some(Status.INACTIVE) ==> r == Err(BusinessValidation(InactiveStatusMessage))
    ensures ParseNullableInt(m.serviceId).Ok? && m.dbstatus.None? ==> r == Err(BusinessValidation(InvalidStatusMessage))
    ensures ParseNullableInt(m.serviceId).Ok? && m.dbstatus == Some(Status.ACTIVE) && ParseNullableInt(m.userId).Ok?
      && ExistsByUserIdAndServiceIdAndDbstatus(s.records, ParseNullableInt(m.userId).value, ParseNullableInt(m.serviceId).value, Status.ACTIVE)
      ==> r == Err(DuplicateSubscription(DuplicateMessage))
    ensures ParseNullableInt(m.serviceId).Ok? && m.dbstatus == Some(Status.ACTIVE) && ParseNullableInt(m.userId).Err?
      ==> r == Err(NumberFormat)
    ensures AdmitsNew(s, m) && ValidateSubscriptionDates(m.startDate, today).Err?
      ==> r == Err(ValidateSubscriptionDates(m.startDate, today).error)
    ensures AdmitsNew(s, m) && ValidateSubscriptionDates(m.startDate, today).Ok? && SubscriptionMapper.ToEntity(m).Err?
      ==> r == Err(SubscriptionMapper.ToEntity(m).error)
    ensures r.Ok? <==>
      AdmitsNew(s, m) && ValidateSubscriptionDates(m.startDate, today).Ok? && SubscriptionMapper.ToEntity(m).Ok?
    ensures r.Ok? ==>
      && |r.value.0.records| == |s.records| + 1
      && r.value.0.records[..|s.records|] == s.records
      && r.value.0.nextId == s.nextId + 1
    ensures r.Ok? && |r.value.0.records| == |s.records| + 1 ==>
      var x := r.value.0.records[|s.records|];
      && x.id == s.nextId
      && x.userId == ParseNullableInt(m.userId).value && x.serviceId == ParseNullableInt(m.serviceId).value
      && x.startDate == AtStartOfDay(ValidateSubscriptionDates(m.startDate, today).value)
      && x.endDate == now && x.status == m.status.value && x.dbstatus == Status.ACTIVE
      && x.createdDate == Some(now) && x.updatedDate == Some(now)
      && x.createdBy == Some(CreatedByOrSystem(m.createdBy)) && x.updatedBy == Some(SystemUser)
      && r.value.1 == SubscriptionMapper.ToModel(x)
  {
    var serviceId :- ParseNullableInt(m.serviceId);
    if m.dbstatus == Some(Status.INACTIVE) then Err(BusinessValidation(InactiveStatusMessage))
    else if !IsValidDbStatus(m.dbstatus) then Err(BusinessValidation(InvalidStatusMessage))
    else
      var userId :- ParseNullableInt(m.userId);
      if ExistsByUserIdAndServiceIdAndDbstatus(s.records, userId, serviceId, Status.ACTIVE) then
        Err(DuplicateSubscription(DuplicateMessage))
      else
        var _ :- ValidateSubscriptionDates(m.startDate, today);
        var e :- SubscriptionMapper.ToEntity(m);
        var x := e.(
          id := s.nextId,
          endDate := now,
          createdDate := Some(now),
          updatedDate := Some(now),
          createdBy := Some(CreatedByOrSystem(m.createdBy)),
          updatedBy := Some(SystemUser));
        Ok((SubscriptionStore(s.records + [x], s.nextId + 1), SubscriptionMapper.ToModel(x)))
  }

  /** `Integer.parseInt` of a field the update only applies when present. */
  function ParseIfPresent(o: Option<string>): (r: Result<Option<int>, Error>)
    ensures o.None? ==> r == Ok(None)
    ensures o.Some? ==> (r.Ok? <==> ParseInt(o.value).Ok?)
    ensures o.Some? && r.Ok? ==> r.value == Some(ParseInt(o.value).value)
    ensures r.Err? ==> r.error == NumberFormat
  {
    if o.None? then Ok(None)
    else var v :- ParseInt(o.value); Ok(Some(v))
  }

  /** `convertToLocalDateTime` of a date the update only applies when
      present. Its failure is `DateUtils`' own `InvalidDateFormatException`,
      taken here not to be a `DateTimeParseException`, so the update's date
      handlers leave it as it is. */
  function ConvertIfPresent(o: Option<string>): (r: Result<Option<LocalDateTime>, Error>)
    ensures o.None? ==> r == Ok(None)
    ensures o.Some? ==> (r.Ok? <==> ParseYyyyMmDd(o.value).Some?)
    ensures o.Some? && r.Ok? ==> r.value == Some(AtStartOfDay(ParseYyyyMmDd(o.value).value))
    ensures r.Err? ==> r.error == InvalidDateFormat(InvalidFormatMessage)
  {
    if o.None? then Ok(None)
    else var v :- ConvertToLocalDateTime(o); Ok(Some(v))
  }

  /** The new value of a field a partial update may overwrite. */
  function OrKeep<T>(o: Option<T>, current: T): (r: T)
    ensures o.None? ==> r == current
    ensures o.Some? ==> r == o.value
  {
    if o.Some? then o.value else current
  }

  /** `updateSubscriptionDetails(existing, model)`: each present field among
      service id, user id, status and the two dates replaces the stored one,
      in that order, the first that fails to convert aborting the update;
      then `updatedBy` is "Admin" and `updatedDate` is `now`. The id, the
      `status` and the creation stamps are never touched, and nothing is
      re-checked against other subscriptions. */
  function UpdateSubscriptionDetails(e: Subscription, m: SubscriptionModel, now: LocalDateTime): (r: Result<Subscription, Error>)
    ensures r.Ok? <==>
      && ParseIfPresent(m.serviceId).Ok? && ParseIfPresent(m.userId).Ok?
      && ConvertIfPresent(m.startDate).Ok? && ConvertIfPresent(m.endDate).Ok?
    ensures r.Err? ==> r.error == NumberFormat || r.error == InvalidDateFormat(InvalidFormatMessage)
    ensures ParseIfPresent(m.serviceId).Err? || ParseIfPresent(m.userId).Err? ==> r == Err(NumberFormat)
    ensures ParseIfPresent(m.serviceId).Ok? && ParseIfPresent(m.userId).Ok?
      && (ConvertIfPresent(m.startDate).Err? || ConvertIfPresent(m.endDate).Err?)
      ==> r == Err(InvalidDateFormat(InvalidFormatMessage))
    ensures r.Ok? ==>
      && r.value.id == e.id && r.value.status == e.status
      && r.value.createdDate == e.createdDate && r.value.createdBy == e.createdBy
      && r.value.updatedBy == Some(AdminUser) && r.value.updatedDate == Some(now)
    ensures r.Ok? ==>
      && (m.serviceId.None? ==> r.value.serviceId == e.serviceId)
      && (m.serviceId.Some? ==> r.value.serviceId == ParseInt(m.serviceId.value).value)
      && (m.userId.None? ==> r.value.userId == e.userId)
      && (m.userId.Some? ==> r.value.userId == ParseInt(m.userId.value).value)
      && (m.dbstatus.None? ==> r.value.dbstatus == e.dbstatus)
      && (m.dbstatus.Some? ==> r.value.dbstatus == m.dbstatus.value)
      && (m.startDate.None? ==> r.value.startDate == e.startDate)
      && (m.startDate.Some? ==> r.value.startDate == AtStartOfDay(ParseYyyyMmDd(m.startDate.value).value))
      && (m.endDate.None? ==> r.value.endDate == e.endDate)
      && (m.endDate.Some? ==> r.value.endDate == AtStartOfDay(ParseYyyyMmDd(m.endDate.value).value))
  {
    var serviceId := ParseIfPresent(m.serviceId);
    var userId := ParseIfPresent(m.userId);
    var start := ConvertIfPresent(m.startDate);
    var end := ConvertIfPresent(m.endDate);
    if serviceId.Err? then Err(serviceId.error)
    else if userId.Err? then Err(userId.error)
    else if start.Err? then Err(start.error)
    else if end.Err? then Err(end.error)
    else
      StatusTextRoundTrip(m.dbstatus);
      var dbstatus := if m.dbstatus.Some? then StatusFromString(StatusText(m.dbstatus)).value else e.dbstatus;
      Ok(e.(
        serviceId := OrKeep(serviceId.value, e.serviceId),
        userId := OrKeep(userId.value, e.userId),
        dbstatus := dbstatus,
        startDate := OrKeep(start.value, e.startDate),
        endDate := OrKeep(end.value, e.endDate),
        updatedBy := Some(AdminUser),
        updatedDate := Some(now)))
  }

  /** The message of a `SubscriptionNotFoundException` for a missing id. */
  function SubscriptionNotFoundMessage(id: int): string {
    "Subscription with ID '" + IntToString(id) + "' not found."
  }

  /** `updateSubscription(id, model)`: the record with that id, updated in
      place; the answer is the updated record as a model. */
  function UpdateSubscription(s: SubscriptionStore, id: int, m: SubscriptionModel, now: LocalDateTime)
    : (r: Result<(SubscriptionStore, SubscriptionModel), Error>)
    ensures r == Err(SubscriptionNotFound(SubscriptionNotFoundMessage(id))) <==> forall i :: 0 <= i < |s.records| ==> s.records[i].id != id
    ensures r.Ok? <==>
      FindSubscriptionIndex(s.records, id).Some?
      && UpdateSubscriptionDetails(s.records[FindSubscriptionIndex(s.records, id).value], m, now).Ok?
    ensures FindSubscriptionIndex(s.records, id).Some?
      && UpdateSubscriptionDetails(s.records[FindSubscriptionIndex(s.records, id).value], m, now).Err?
      ==> r == Err(UpdateSubscriptionDetails(s.records[FindSubscriptionIndex(s.records, id).value], m, now).error)
    ensures r.Ok? ==>
      var i := FindSubscriptionIndex(s.records, id).value;
      && UpdateSubscriptionDetails(s.records[i], m, now).Ok?
      && r.value.0 == s.(records := s.records[i := UpdateSubscriptionDetails(s.records[i], m, now).value])
      && r.value.1 == SubscriptionMapper.ToModel(r.value.0.records[i])
  {
    var found := FindSubscriptionIndex(s.records, id);
    if found.None? then Err(SubscriptionNotFound(SubscriptionNotFoundMessage(id)))
    else
      var x :- UpdateSubscriptionDetails(s.records[found.value], m, now);
      Ok((s.(records := s.records[found.value := x]), SubscriptionMapper.ToModel(x)))
  }

  /** `cancelSubscription(subscriptionId, userId)`: the user must exist (checked
      first) and so must the subscription, which becomes INACTIVE, updated by
      "Admin" at `now`. The subscription need not belong to the user. */
  function CancelSubscription(users: seq<User>, s: SubscriptionStore, subscriptionId: int, userId: int, now: LocalDateTime)
    : (r: Result<SubscriptionStore, Error>)
    ensures r == Err(SubscriptionNotFound("User with ID " + IntToString(userId) + " not found.")) <==>
      forall u :: u in users ==> u.id != userId
    ensures (exists u :: u in users && u.id == userId) ==>
      (r == Err(SubscriptionNotFound(SubscriptionNotFoundMessage(subscriptionId))) <==>
        forall i :: 0 <= i < |s.records| ==> s.records[i].id != subscriptionId)
    ensures r.Ok? <==>
      (exists u :: u in users && u.id == userId) && (exists i :: 0 <= i < |s.records| && s.records[i].id == subscriptionId)
    ensures r.Ok? ==>
      var i := FindSubscriptionIndex(s.records, subscriptionId).value;
      && |r.value.records| == |s.records| && r.value.nextId == s.nextId
      && (forall j :: 0 <= j < |s.records| && j != i ==> r.value.records[j] == s.records[j])
      && r.value.records[i] == s.records[i].(dbstatus := Status.INACTIVE, updatedBy := Some(AdminUser), updatedDate := Some(now))
  {
    if !ExistsUserById(users, userId) then Err(SubscriptionNotFound("User with ID " + IntToString(userId) + " not found."))
    else
      var found := FindSubscriptionIndex(s.records, subscriptionId);
      assert SubscriptionNotFoundMessage(subscriptionId)[0] == 'S';
      if found.None? then Err(SubscriptionNotFound(SubscriptionNotFoundMessage(subscriptionId)))
      else
        var i := found.value;
        Ok(s.(records := s.records[i := s.records[i].(dbstatus := Status.INACTIVE, updatedBy := Some(AdminUser), updatedDate := Some(now))]))
  }

  /** `getSubscriptionDetails(userId)`: every subscription of the user, in
      any status. A null or non-positive id, an unknown user and an empty
      result are each reported as not found, checked in that order. */
  function GetSubscriptionDetails(users: seq<User>, s: SubscriptionStore, userId: Option<int>): (r: Result<seq<Subscription>, Error>)
    ensures userId.None? || userId.value <= 0 ==> r == Err(SubscriptionNotFound("Invalid userId format."))
    ensures userId.Some? && userId.value > 0 ==>
      (r == Err(SubscriptionNotFound("User with userId " + IntToString(userId.value) + " not found.")) <==>
        forall u :: u in users ==> u.id != userId.value)
    ensures userId.Some? && userId.value > 0 && (exists u :: u in users && u.id == userId.value) ==>
      (r == Err(SubscriptionNotFound("No subscriptions found for userId: " + IntToString(userId.value))) <==>
        forall x :: x in s.records ==> x.userId != userId.value)
    ensures r.Ok? <==>
      && userId.Some? && userId.value > 0
      && (exists u :: u in users && u.id == userId.value)
      && (exists x :: x in s.records && x.userId == userId.value)
    ensures r.Ok? ==> |r.value| > 0 && forall x :: x in r.value <==> x in s.records && x.userId == userId.value
  {
    if userId.None? || userId.value <= 0 then Err(SubscriptionNotFound("Invalid userId format."))
    else if !ExistsUserById(users, userId.value) then
      Err(SubscriptionNotFound("User with userId " + IntToString(userId.value) + " not found."))
    else
      var rows := FindSubscriptionsByUserId(s.records, userId.value);
      assert |rows| > 0 ==> rows[0] in rows;
      assert ("No subscriptions found for userId: " + IntToString(userId.value))[0] == 'N';
      if |rows| == 0 then Err(SubscriptionNotFound("No subscriptions found for userId: " + IntToString(userId.value)))
      else Ok(rows)
  }

  /** `stream().map(subscriptionMapper::toModel)`: each row as a model, in
      order. */
  function ToModels(rows: seq<Subscription>): (r: seq<SubscriptionModel>)
    ensures |r| == |rows|
    ensures forall k :: 0 <= k < |rows| ==> r[k] == SubscriptionMapper.ToModel(rows[k])
    ensures forall x :: x in rows ==> SubscriptionMapper.ToModel(x) in r
  {
    var models := seq(|rows|, k requires 0 <= k < |rows| => SubscriptionMapper.ToModel(rows[k]));
    assert forall x :: x in rows ==> SubscriptionMapper.ToModel(x) in models by {
      forall x | x in rows ensures SubscriptionMapper.ToModel(x) in models {
        var k :| 0 <= k < |rows| && rows[k] == x;
        assert models[k] == SubscriptionMapper.ToModel(x);
      }
    }
    models
  }

  /** `getSubscriptionUserId(userId, status)`: the user's subscriptions in the
      given status, as models; asking for INACTIVE ones is refused, and a null
      status matches nothing. */
  function GetSubscriptionUserId(s: SubscriptionStore, userId: int, status: Option<Status>): (r: Result<seq<SubscriptionModel>, Error>)
    ensures r.Err? <==> status == Some(Status.INACTIVE)
    ensures r.Err? ==> r.error == BusinessValidation(InactiveQueryMessage)
    ensures r.Ok? && status.None? ==> r.value == []
    ensures r.Ok? ==> forall x :: x in s.records && x.userId == userId && Some(x.dbstatus) == status ==>
      SubscriptionMapper.ToModel(x) in r.value
    ensures r.Ok? ==> forall k :: 0 <= k < |r.value| ==> ModelOfStoredRow(s, userId, status, r.value[k])
    ensures r.Ok? ==> forall k :: 0 <= k < |r.value| ==>
      r.value[k].dbstatus == status && r.value[k].userId == Some(IntToString(userId))
  {
    if status == Some(Status.INACTIVE) then Err(BusinessValidation(InactiveQueryMessage))
    else
      var rows := FindSubscriptionsByUserIdAndDbstatus(s.records, userId, status);
      assert status.None? ==> |rows| == 0;
      ModelsOfMatchingRows(s, userId, status, rows);
      Ok(ToModels(rows))
  }

  /** `m` is the model of a stored row of `userId` whose stored status is
      `status`. */
  ghost predicate ModelOfStoredRow(s: SubscriptionStore, userId: int, status: Option<Status>, m: SubscriptionModel)
  {
    exists x :: x in s.records && x.userId == userId && Some(x.dbstatus) == status && m == SubscriptionMapper.ToModel(x)
  }

  /** Each model of a filtered row is the model of a stored row that meets
      the filter. */
  lemma ModelsOfMatchingRows(s: SubscriptionStore, userId: int, status: Option<Status>, rows: seq<Subscription>)
    requires forall x :: x in rows ==> x in s.records && x.userId == userId && Some(x.dbstatus) == status
    ensures forall k :: 0 <= k < |rows| ==> ModelOfStoredRow(s, userId, status, ToModels(rows)[k])
  {
    forall k | 0 <= k < |rows|
      ensures ModelOfStoredRow(s, userId, status, ToModels(rows)[k])
    {
      var x := rows[k];
      assert x in rows;
      assert ToModels(rows)[k] == SubscriptionMapper.ToModel(x);
    }
  }

  // ---------------------------------------------------------------------------
  // Properties

  /** Saving a record under the next id keeps the invariant when the record
      is not a second ACTIVE one for its (user, service). */
  lemma AppendPreservesValid(s: SubscriptionStore, x: Subscription)
    requires Valid(s) && x.id == s.nextId
    requires !ExistsByUserIdAndServiceIdAndDbstatus(s.records, x.userId, x.serviceId, Status.ACTIVE)
    ensures Valid(SubscriptionStore(s.records + [x], s.nextId + 1))
  {
    var rows := s.records + [x];
    assert forall i :: 0 <= i < |s.records| ==> rows[i] == s.records[i];
  }

  /** A successful create keeps the invariant: the new record is the only
      ACTIVE one for its (user, service), and its id is fresh. */
  lemma CreatePreservesValid(s: SubscriptionStore, m: SubscriptionModel, today: LocalDate, now: LocalDateTime)
    requires Valid(s)
    ensures CreateSubscription(s, m, today, now).Ok? ==> Valid(CreateSubscription(s, m, today, now).value.0)
  {
    var r := CreateSubscription(s, m, today, now);
    if r.Ok? {
      AppendedPreservesValid(s, r.value.0);
    }
  }

  /** `t` is `s` with one record saved under the next id that is not a
      second ACTIVE one for its (user, service): `t` keeps the invariant. */
  lemma AppendedPreservesValid(s: SubscriptionStore, t: SubscriptionStore)
    requires Valid(s)
    requires |t.records| == |s.records| + 1 && t.records[..|s.records|] == s.records && t.nextId == s.nextId + 1
    requires t.records[|s.records|].id == s.nextId
    requires !ExistsByUserIdAndServiceIdAndDbstatus(s.records, t.records[|s.records|].userId, t.records[|s.records|].serviceId, Status.ACTIVE)
    ensures Valid(t)
  {
    var x := t.records[|s.records|];
    assert t == SubscriptionStore(s.records + [x], s.nextId + 1) by {
      assert t.records == t.records[..|s.records|] + [x];
    }
    AppendPreservesValid(s, x);
  }

  /** Right after a successful create, `checkActiveSubscription` reports the
      new subscription. */
  lemma CreateThenCheckActive(s: SubscriptionStore, m: SubscriptionModel, today: LocalDate, now: LocalDateTime)
    requires CreateSubscription(s, m, today, now).Ok?
    ensures CheckActiveSubscription(CreateSubscription(s, m, today, now).value.0, ParseNullableInt(m.userId).value, m.serviceId) == Ok(true)
  {
    var rows := CreateSubscription(s, m, today, now).value.0.records;
    assert ActiveFor(rows[|s.records|], ParseNullableInt(m.userId).value, ParseNullableInt(m.serviceId).value);
  }

  /** Appending a record of an existing user makes `getSubscriptionDetails`
      list it along with every record it listed before. */
  lemma DetailsAfterAppend(users: seq<User>, s: SubscriptionStore, t: SubscriptionStore, x: Subscription)
    requires t.records == s.records + [x]
    requires x.userId > 0 && exists u :: u in users && u.id == x.userId
    ensures GetSubscriptionDetails(users, t, Some(x.userId)).Ok?
    ensures x in GetSubscriptionDetails(users, t, Some(x.userId)).value
    ensures GetSubscriptionDetails(users, s, Some(x.userId)).Ok? ==>
      forall y :: y in GetSubscriptionDetails(users, s, Some(x.userId)).value ==> y in GetSubscriptionDetails(users, t, Some(x.userId)).value
  {
    assert x == t.records[|s.records|];
    assert forall y :: y in s.records ==> y in t.records;
  }

  /** After a create, `getSubscriptionDetails` of an existing user lists the
      new record along with every record it listed before. */
  lemma CreateThenDetails(users: seq<User>, s: SubscriptionStore, m: SubscriptionModel, today: LocalDate, now: LocalDateTime)
    requires CreateSubscription(s, m, today, now).Ok?
    requires ParseNullableInt(m.userId).value > 0
    requires exists u :: u in users && u.id == ParseNullableInt(m.userId).value
    ensures
      var uid := ParseNullableInt(m.userId).value;
      var after := CreateSubscription(s, m, today, now).value.0;
      && GetSubscriptionDetails(users, after, Some(uid)).Ok?
      && after.records[|s.records|] in GetSubscriptionDetails(users, after, Some(uid)).value
      && (GetSubscriptionDetails(users, s, Some(uid)).Ok? ==>
            forall y :: y in GetSubscriptionDetails(users, s, Some(uid)).value ==> y in GetSubscriptionDetails(users, after, Some(uid)).value)
  {
    var after := CreateSubscription(s, m, today, now).value.0;
    var x := after.records[|s.records|];
    assert after.records == s.records + [x] by {
      assert after.records == after.records[..|s.records|] + [x];
    }
    DetailsAfterAppend(users, s, after, x);
  }

  /** After a create, `getSubscriptionUserId` of the owner for ACTIVE lists
      the new subscription's model. */
  lemma CreateThenListActive(s: SubscriptionStore, m: SubscriptionModel, today: LocalDate, now: LocalDateTime)
    requires CreateSubscription(s, m, today, now).Ok?
    ensures
      var r := CreateSubscription(s, m, today, now).value;
      var listed := GetSubscriptionUserId(r.0, ParseNullableInt(m.userId).value, Some(Status.ACTIVE));
      listed.Ok? && r.1 in listed.value
  {
    var r := CreateSubscription(s, m, today, now).value;
    var x := r.0.records[|s.records|];
    assert x in r.0.records;
  }

  /** The start-date rule against the printed form of a date: today is
      accepted, any earlier day refused as being in the past. */
  lemma StartDateBoundary(d: LocalDate, today: LocalDate)
    requires 1 <= d.year <= 9999
    ensures IsBefore(d, today) ==> ValidateSubscriptionDates(Some(LocalDateToString(d)), today) == Err(InvalidDateFormat(StartDatePastMessage))
    ensures !IsBefore(d, today) ==> ValidateSubscriptionDates(Some(LocalDateToString(d)), today) == Ok(d)
    ensures 1 <= today.year <= 9999 ==> ValidateSubscriptionDates(Some(LocalDateToString(today)), today) == Ok(today)
  {
  }

  /** Cancelling keeps the invariant: it only switches one record off. */
  lemma CancelPreservesValid(users: seq<User>, s: SubscriptionStore, subscriptionId: int, userId: int, now: LocalDateTime)
    requires Valid(s)
    ensures CancelSubscription(users, s, subscriptionId, userId, now).Ok? ==>
      Valid(CancelSubscription(users, s, subscriptionId, userId, now).value)
  {
  }

  /** Cancelling twice at the same moment is cancelling once. */
  lemma CancelIdempotent(users: seq<User>, s: SubscriptionStore, subscriptionId: int, userId: int, now: LocalDateTime)
    requires CancelSubscription(users, s, subscriptionId, userId, now).Ok?
    ensures CancelSubscription(users, CancelSubscription(users, s, subscriptionId, userId, now).value, subscriptionId, userId, now)
      == CancelSubscription(users, s, subscriptionId, userId, now)
  {
    var s' := CancelSubscription(users, s, subscriptionId, userId, now).value;
    var i := FindSubscriptionIndex(s.records, subscriptionId).value;
    assert FindSubscriptionIndex(s'.records, subscriptionId) == Some(i) by {
      assert forall j :: 0 <= j < |s'.records| ==> s'.records[j].id == s.records[j].id;
    }
    var x := s'.records[i];
    assert x.(dbstatus := Status.INACTIVE, updatedBy := Some(AdminUser), updatedDate := Some(now)) == x;
    assert s'.records[i := x] == s'.records;
  }

  /** Any existing user can cancel any existing subscription, their own or
      not. */
  lemma CancelIgnoresOwnership(users: seq<User>, s: SubscriptionStore, i: int, userId: int, now: LocalDateTime)
    requires 0 <= i < |s.records| && s.records[i].userId != userId
    requires exists u :: u in users && u.id == userId
    ensures CancelSubscription(users, s, s.records[i].id, userId, now).Ok?
  {
  }

  /** An update that carries only nulls touches nothing but the audit stamp. */
  lemma NullUpdateStampsOnly(e: Subscription, now: LocalDateTime)
    ensures UpdateSubscriptionDetails(e, SubscriptionModel(None, None, None, None, None, None, None, None, None, None, None), now)
      == Ok(e.(updatedBy := Some(AdminUser), updatedDate := Some(now)))
  {
  }

  /** An update keeps every primary key. */
  lemma UpdateKeepsIds(s: SubscriptionStore, id: int, m: SubscriptionModel, now: LocalDateTime)
    requires IdsBelow(s)
    ensures UpdateSubscription(s, id, m, now).Ok? ==> IdsBelow(UpdateSubscription(s, id, m, now).value.0)
  {
  }

  /** An update does not re-check uniqueness: re-activating a cancelled
      subscription next to an ACTIVE one for the same user and service
      leaves two ACTIVE rows. */
  lemma UpdateCanBreakUniqueActive(t: LocalDateTime)
    ensures
      var a := Subscription(1, 7, 3, t, t, SubscriptionStatus.ACTIVE, Status.ACTIVE, None, None, None, None);
      var b := a.(id := 2, dbstatus := Status.INACTIVE);
      var s := SubscriptionStore([a, b], 3);
      var m := SubscriptionModel(None, None, None, None, None, None, Some(Status.ACTIVE), None, None, None, None);
      && Valid(s)
      && UpdateSubscription(s, 2, m, t).Ok?
      && !UniqueActive(UpdateSubscription(s, 2, m, t).value.0.records)
  {
    var a := Subscription(1, 7, 3, t, t, SubscriptionStatus.ACTIVE, Status.ACTIVE, None, None, None, None);
    var b := a.(id := 2, dbstatus := Status.INACTIVE);
    var s := SubscriptionStore([a, b], 3);
    var m := SubscriptionModel(None, None, None, None, None, None, Some(Status.ACTIVE), None, None, None, None);
    assert Valid(s) by {
      assert forall i :: 0 <= i < |s.records| ==> s.records[i].dbstatus == Status.ACTIVE ==> i == 0;
    }
    assert FindSubscriptionIndex(s.records, 2) == Some(1);
    StatusOnlyUpdate(b, m, t);
    var rows := UpdateSubscription(s, 2, m, t).value.0.records;
    assert ActiveFor(rows[0], rows[1].userId, rows[1].serviceId) && rows[1].dbstatus == Status.ACTIVE;
  }

  /** An update that names only a status succeeds and changes the stored
      status alone among the identifying fields. */
  lemma StatusOnlyUpdate(e: Subscription, m: SubscriptionModel, now: LocalDateTime)
    requires m.serviceId.None? && m.userId.None? && m.startDate.None? && m.endDate.None? && m.dbstatus.Some?
    ensures UpdateSubscriptionDetails(e, m, now).Ok?
    ensures var u := UpdateSubscriptionDetails(e, m, now).value;
      u.userId == e.userId && u.serviceId == e.serviceId && u.dbstatus == m.dbstatus.value
  {
  }
}

=== FILE: tokens.dfy ===
/** `service/servicesImpl/AuthTokenServiceImpl`: logging in issues a token,
    and a token is checked or exchanged for a new one. The token table is a
    sequence of records; the clock readings and the UUID of a new token are
    parameters. An operation that fails returns no table, so a failure never
    changes the tables. */
module AuthTokenServiceImpl {
  import opened Wrappers
  import opened Errors
  import opened DateUtils
  import opened StatusEnum
  import opened Entities
  import opened Repositories
  import AuthTokenMapper

  /** The `auth_tokens` table and the next value of its IDENTITY column. */
  datatype TokenStore = TokenStore(tokens: seq<AuthToken>, nextId: int)

  /** Whether `t` is an ACTIVE token of user `u`. */
  predicate ActiveFor(t: AuthToken, u: int) {
    t.userId == u && t.dbstatus == ACTIVE
  }

  /** How many ACTIVE tokens user `u` holds. */
  function ActiveCount(ts: seq<AuthToken>, u: int): (n: nat)
    ensures n <= |ts|
  {
    if |ts| == 0 then 0
    else ActiveCount(ts[..|ts| - 1], u) + (if ActiveFor(ts[|ts| - 1], u) then 1 else 0)
  }

  /** A user holds no ACTIVE token exactly when none of their tokens is ACTIVE. */
  lemma {:induction false} ActiveCountZero(ts: seq<AuthToken>, u: int)
    ensures ActiveCount(ts, u) == 0 <==> forall i :: 0 <= i < |ts| ==> !ActiveFor(ts[i], u)
  {
    if |ts| > 0 {
      var init := ts[..|ts| - 1];
      ActiveCountZero(init, u);
      assert forall i :: 0 <= i < |init| ==> init[i] == ts[i];
    }
  }

  /** Two tables of the same length whose rows agree on being ACTIVE for `u`
      give `u` the same count. */
  lemma {:induction false} ActiveCountPointwise(a: seq<AuthToken>, b: seq<AuthToken>, u: int)
    requires |a| == |b|
    requires forall i :: 0 <= i < |a| ==> (ActiveFor(a[i], u) <==> ActiveFor(b[i], u))
    ensures ActiveCount(a, u) == ActiveCount(b, u)
  {
    if |a| > 0 {
      ActiveCountPointwise(a[..|a| - 1], b[..|b| - 1], u);
    }
  }

  /** At most one ACTIVE token per user: the policy `generateToken` keeps. */
  ghost predicate AtMostOneActive(ts: seq<AuthToken>) {
    forall u :: ActiveCount(ts, u) <= 1
  }

  /** No two rows carry the same token string. */
  predicate TokensDistinct(ts: seq<AuthToken>) {
    forall i, j :: 0 <= i < j < |ts| ==> ts[i].token != ts[j].token
  }

  /** Primary keys are distinct and below the IDENTITY counter. */
  predicate IdsBelow(s: TokenStore) {
    && (forall i :: 0 <= i < |s.tokens| ==> s.tokens[i].id < s.nextId)
    && (forall i, j :: 0 <= i < j < |s.tokens| ==> s.tokens[i].id != s.tokens[j].id)
  }

  /** The table's invariant. */
  ghost predicate Valid(s: TokenStore) {
    AtMostOneActive(s.tokens) && TokensDistinct(s.tokens) && IdsBelow(s)
  }

  /** `t` after the deactivation loop for user `u`. */
  function Deactivated(t: AuthToken, u: int): AuthToken {
    if t.userId == u then t.(dbstatus := INACTIVE) else t
  }

  /** Every token of `u` that `findByUserIdAndDbstatus(u, ACTIVE)` returns set
      INACTIVE and saved; the other rows untouched. */
  function DeactivateAll(ts: seq<AuthToken>, u: int): (r: seq<AuthToken>)
    ensures |r| == |ts|
    ensures forall i :: 0 <= i < |ts| ==> r[i].id == ts[i].id && r[i].token == ts[i].token
    ensures forall i :: 0 <= i < |ts| && ts[i].userId != u ==> r[i] == ts[i]
    ensures forall i :: 0 <= i < |ts| && ts[i].userId == u ==> r[i].dbstatus == INACTIVE
    ensures ActiveCount(r, u) == 0
    ensures forall v :: v != u ==> ActiveCount(r, v) == ActiveCount(ts, v)
  {
    var r := seq(|ts|, i requires 0 <= i < |ts| => Deactivated(ts[i], u));
    DeactivatedCounts(ts, r, u);
    r
  }

  /** Deactivating row by row leaves `u` no ACTIVE token and every other
      user's count as it was. */
  lemma DeactivatedCounts(ts: seq<AuthToken>, r: seq<AuthToken>, u: int)
    requires |r| == |ts| && forall i :: 0 <= i < |ts| ==> r[i] == Deactivated(ts[i], u)
    ensures ActiveCount(r, u) == 0
    ensures forall v :: v != u ==> ActiveCount(r, v) == ActiveCount(ts, v)
  {
    ActiveCountZero(r, u);
    forall v | v != u
      ensures ActiveCount(r, v) == ActiveCount(ts, v)
    {
      ActiveCountPointwise(r, ts, v);
    }
  }

  /** Appending one row adds its own contribution to each count. */
  lemma ActiveCountAppend(ts: seq<AuthToken>, t: AuthToken, u: int)
    ensures ActiveCount(ts + [t], u) == ActiveCount(ts, u) + (if ActiveFor(t, u) then 1 else 0)
  {
    assert (ts + [t])[..|ts|] == ts;
  }

  /** `generateToken(user)` with UUID `uuid` and clock reading `now`: the
      user's ACTIVE tokens are deactivated, then the record `AuthTokenMapper`
      builds is saved under the next id. The result is the new table and the
      token string. */
  function GenerateToken(s: TokenStore, user: User, uuid: string, now: LocalDateTime): (r: (TokenStore, string))
    ensures r.1 == uuid
    ensures |r.0.tokens| == |s.tokens| + 1 && r.0.nextId == s.nextId + 1
    ensures forall i :: 0 <= i < |s.tokens| && s.tokens[i].userId != user.id ==> r.0.tokens[i] == s.tokens[i]
    ensures forall i :: 0 <= i < |s.tokens| && s.tokens[i].userId == user.id ==>
      r.0.tokens[i] == s.tokens[i].(dbstatus := INACTIVE)
    ensures r.0.tokens[|s.tokens|] == AuthTokenMapper.ToEntity(user, uuid, now).(id := s.nextId)
    ensures ActiveCount(r.0.tokens, user.id) == 1
    ensures forall v :: v != user.id ==> ActiveCount(r.0.tokens, v) == ActiveCount(s.tokens, v)
  {
    var kept := DeactivateAll(s.tokens, user.id);
    var t := AuthTokenMapper.ToEntity(user, uuid, now).(id := s.nextId);
    ActiveCountAppend(kept, t, user.id);
    assert forall v :: ActiveCount(kept + [t], v) == ActiveCount(kept, v) + (if ActiveFor(t, v) then 1 else 0) by {
      forall v { ActiveCountAppend(kept, t, v); }
    }
    (TokenStore(kept + [t], s.nextId + 1), uuid)
  }

  /** Issuing a token keeps the invariant, provided the UUID is new. */
  lemma GenerateTokenPreservesValid(s: TokenStore, user: User, uuid: string, now: LocalDateTime)
    requires Valid(s)
    requires forall i :: 0 <= i < |s.tokens| ==> s.tokens[i].token != uuid
    ensures Valid(GenerateToken(s, user, uuid, now).0)
  {
    var s' := GenerateToken(s, user, uuid, now).0;
    forall v ensures ActiveCount(s'.tokens, v) <= 1 {
      if v != user.id {
        assert ActiveCount(s.tokens, v) <= 1;
      }
    }
  }

  /** `authenticateUser(userName, password)`: the user whose name matches
      ignoring case, a password equal to theirs (`password.equals` of a null
      password throws), then a new token, answered as the map
      `{"token": uuid}`. */
  function AuthenticateUser(users: seq<User>, s: TokenStore, userName: string, password: Option<string>,
                            uuid: string, now: LocalDateTime): (r: Result<(TokenStore, map<string, string>), Error>)
    ensures r == Err(BusinessValidation("User not found")) <==>
      forall u :: u in users ==> !NameMatchesIgnoringCase(u, userName)
    ensures r == Err(BusinessValidation("Invalid password")) <==>
      exists u: User :: FindUserByUserNameIgnoreCase(users, userName) == Ok(Some(u)) && password.Some? && u.password != password
    ensures r.Ok? <==>
      exists u: User :: FindUserByUserNameIgnoreCase(users, userName) == Ok(Some(u)) && password.Some? && u.password == password
    ensures FindUserByUserNameIgnoreCase(users, userName).Err? ==> r == Err(FindUserByUserNameIgnoreCase(users, userName).error)
    ensures (exists u: User :: FindUserByUserNameIgnoreCase(users, userName) == Ok(Some(u))) && password.None? ==> r == Err(NullPointer)
    ensures r.Ok? ==> r.value.1 == map["token" := uuid]
    ensures r.Ok? ==> exists u :: u in users && NameMatchesIgnoringCase(u, userName) && r.value.0 == GenerateToken(s, u, uuid, now).0
  {
    var found :- FindUserByUserNameIgnoreCase(users, userName);
    if found.None? then Err(BusinessValidation("User not found"))
    else if password.None? then Err(NullPointer)
    else if found.value.password != password then Err(BusinessValidation("Invalid password"))
    else
      var (s', token) := GenerateToken(s, found.value, uuid, now);
      Ok((s', map["token" := token]))
  }

  /** What the checks `isUserValid` and `validToken` share find out about a
      presented token. */
  datatype Verdict = UnknownToken | DeadToken | OwnerMissing | Owner(user: User)

  /** The token must exist, be ACTIVE and not have expired before `today`
      (`LocalDate.now()`; the expiry day itself still counts), and its owner
      must exist; checked in that order. */
  function CheckToken(users: seq<User>, s: TokenStore, token: string, today: LocalDate): (r: Result<Verdict, Error>)
    ensures r.Err? <==> FindTokenByToken(s.tokens, token).Err?
    ensures r.Ok? ==> (r.value == UnknownToken <==> forall t :: t in s.tokens ==> t.token != token)
    ensures r.Ok? && r.value != UnknownToken ==>
      var t := FindTokenByToken(s.tokens, token).value.value;
      && (r.value == DeadToken <==> t.dbstatus == INACTIVE || IsAfter(today, t.expireDate))
      && (r.value.Owner? <==> t.dbstatus == ACTIVE && !IsAfter(today, t.expireDate) && FindUserById(users, t.userId).Some?)
      && (r.value.Owner? ==> r.value.user in users && r.value.user.id == t.userId)
  {
    var found :- FindTokenByToken(s.tokens, token);
    if found.None? then Ok(UnknownToken)
    else
      var t := found.value;
      if t.dbstatus == INACTIVE || IsAfter(today, t.expireDate) then Ok(DeadToken)
      else
        var owner := FindUserById(users, t.userId);
        if owner.None? then Ok(OwnerMissing)
        else Ok(Owner(owner.value))
  }

  const ExpiredMessage: string := "Token is a expired"
  const RefreshExpiredMessage: string := "Cannot refresh: Token is  a expired"

  /** The exception a failed check throws, given the message for a dead token. */
  function Rejection(v: Verdict, expiredMessage: string): (e: Error)
    requires !v.Owner?
    ensures e.BusinessValidation?
  {
    match v
    case UnknownToken => BusinessValidation("Invalid token")
    case DeadToken => BusinessValidation(expiredMessage)
    case OwnerMissing => BusinessValidation("User not found")
  }

  /** `isUserValid(token)`: true, or the first check that fails. */
  function IsUserValid(users: seq<User>, s: TokenStore, token: string, today: LocalDate): (r: Result<bool, Error>)
    ensures r.Ok? ==> r.value
    ensures r.Ok? <==> CheckToken(users, s, token, today).Ok? && CheckToken(users, s, token, today).value.Owner?
    ensures CheckToken(users, s, token, today).Err? ==> r == Err(CheckToken(users, s, token, today).error)
    ensures r == Err(BusinessValidation("Invalid token")) <==> CheckToken(users, s, token, today) == Ok(UnknownToken)
    ensures r == Err(BusinessValidation(ExpiredMessage)) <==> CheckToken(users, s, token, today) == Ok(DeadToken)
    ensures r == Err(BusinessValidation("User not found")) <==> CheckToken(users, s, token, today) == Ok(OwnerMissing)
  {
    var v :- CheckToken(users, s, token, today);
    if v.Owner? then Ok(true) else Err(Rejection(v, ExpiredMessage))
  }

  /** `validToken(token)`: the same checks, with their own message for a dead
      token, then a new token for the owner. */
  function ValidToken(users: seq<User>, s: TokenStore, token: string, today: LocalDate,
                      uuid: string, now: LocalDateTime): (r: Result<(TokenStore, string), Error>)
    ensures r.Ok? <==> IsUserValid(users, s, token, today).Ok?
    ensures CheckToken(users, s, token, today).Err? ==> r == Err(CheckToken(users, s, token, today).error)
    ensures r == Err(BusinessValidation("Invalid token")) <==> CheckToken(users, s, token, today) == Ok(UnknownToken)
    ensures r == Err(BusinessValidation(RefreshExpiredMessage)) <==> CheckToken(users, s, token, today) == Ok(DeadToken)
    ensures r == Err(BusinessValidation("User not found")) <==> CheckToken(users, s, token, today) == Ok(OwnerMissing)
    ensures r.Ok? ==> r.value.1 == uuid
    ensures r.Ok? ==> r.value.0 == GenerateToken(s, CheckToken(users, s, token, today).value.user, uuid, now).0
  {
    var v :- CheckToken(users, s, token, today);
    if v.Owner? then Ok(GenerateToken(s, v.user, uuid, now)) else Err(Rejection(v, RefreshExpiredMessage))
  }

  // ---------------------------------------------------------------------------
  // Properties

  /** With distinct token strings, the row carrying a string is the one
      `findByToken` returns. */
  lemma FindsRow(ts: seq<AuthToken>, i: int)
    requires TokensDistinct(ts) && 0 <= i < |ts|
    ensures FindTokenByToken(ts, ts[i].token) == Ok(Some(ts[i]))
  {
    var found := FindTokenByToken(ts, ts[i].token);
    assert ts[i] in ts;
    var k :| 0 <= k < |ts| && ts[k] == found.value.value;
    assert k == i;
  }

  /** With distinct token strings, a token is accepted exactly when some row
      carries it, that row is ACTIVE and unexpired on `today`, and its owner
      exists. */
  lemma IsUserValidAccepts(users: seq<User>, s: TokenStore, token: string, today: LocalDate)
    requires TokensDistinct(s.tokens)
    ensures IsUserValid(users, s, token, today) == Ok(true) <==>
      exists i :: 0 <= i < |s.tokens| && s.tokens[i].token == token && s.tokens[i].dbstatus == ACTIVE
        && !IsAfter(today, s.tokens[i].expireDate) && FindUserById(users, s.tokens[i].userId).Some?
  {
    if i :| 0 <= i < |s.tokens| && s.tokens[i].token == token {
      FindsRow(s.tokens, i);
    }
  }

  /** A new UUID keeps token strings distinct. */
  lemma GenerateTokenKeepsDistinct(s: TokenStore, user: User, uuid: string, now: LocalDateTime)
    requires TokensDistinct(s.tokens)
    requires forall i :: 0 <= i < |s.tokens| ==> s.tokens[i].token != uuid
    ensures TokensDistinct(GenerateToken(s, user, uuid, now).0.tokens)
  {
  }

  /** A token is good from the moment it is issued through its expiry day:
      on the day of issue it is accepted, and on any day after the following
      one it is rejected as expired. */
  lemma {:induction false} IssuedTokenLifetime(users: seq<User>, s: TokenStore, user: User, uuid: string,
                                               now: LocalDateTime, today: LocalDate)
    requires TokensDistinct(s.tokens)
    requires forall i :: 0 <= i < |s.tokens| ==> s.tokens[i].token != uuid
    requires FindUserById(users, user.id).Some?
    ensures var s' := GenerateToken(s, user, uuid, now).0;
      (IsUserValid(users, s', uuid, today) == Ok(true)
       <==> !IsAfter(today, AuthTokenMapper.ToEntity(user, uuid, now).expireDate))
    ensures IsUserValid(users, GenerateToken(s, user, uuid, now).0, uuid, now.date) == Ok(true)
    ensures IsAfter(today, NextDay(now.date)) ==>
      IsUserValid(users, GenerateToken(s, user, uuid, now).0, uuid, today) == Err(BusinessValidation(ExpiredMessage))
  {
    var s' := GenerateToken(s, user, uuid, now).0;
    GenerateTokenKeepsDistinct(s, user, uuid, now);
    FindsRow(s'.tokens, |s.tokens|);
  }

  /** Issuing a token to a user revokes every token they held before: each is
      rejected as expired from then on, whatever the day. */
  lemma {:induction false} ReissueRevokes(users: seq<User>, s: TokenStore, user: User, uuid: string,
                                          now: LocalDateTime, i: int, today: LocalDate)
    requires TokensDistinct(s.tokens)
    requires forall k :: 0 <= k < |s.tokens| ==> s.tokens[k].token != uuid
    requires 0 <= i < |s.tokens| && s.tokens[i].userId == user.id
    ensures IsUserValid(users, GenerateToken(s, user, uuid, now).0, s.tokens[i].token, today)
      == Err(BusinessValidation(ExpiredMessage))
  {
    var s' := GenerateToken(s, user, uuid, now).0;
    GenerateTokenKeepsDistinct(s, user, uuid, now);
    FindsRow(s'.tokens, i);
  }

  /** Refreshing rotates the token: the presented one is dead afterwards and
      the new one is good on the day of issue. */
  lemma {:induction false} ValidTokenRotates(users: seq<User>, s: TokenStore, token: string, today: LocalDate,
                                             uuid: string, now: LocalDateTime, later: LocalDate)
    requires TokensDistinct(s.tokens)
    requires forall k :: 0 <= k < |s.tokens| ==> s.tokens[k].token != uuid
    requires ValidToken(users, s, token, today, uuid, now).Ok?
    ensures IsUserValid(users, ValidToken(users, s, token, today, uuid, now).value.0, token, later)
      == Err(BusinessValidation(ExpiredMessage))
    ensures IsUserValid(users, ValidToken(users, s, token, today, uuid, now).value.0, uuid, now.date) == Ok(true)
  {
    var v := CheckToken(users, s, token, today).value;
    var t := FindTokenByToken(s.tokens, token).value.value;
    var i :| 0 <= i < |s.tokens| && s.tokens[i] == t;
    assert v.user.id == t.userId;
    ReissueRevokes(users, s, v.user, uuid, now, i, later);
    IssuedTokenLifetime(users, s, v.user, uuid, now, now.date);
  }
}

=== FILE: validation.dfy ===
/** The Bean Validation constraints declared on `UsersModel` and
    `ServiceModel`. A model's violations form a set of (field, message)
    pairs. As in Bean Validation, `@Size` and `@Pattern` accept null and
    only `@NotNull` rejects it; `@Pattern` must match the whole string. */
module Validation {
  import opened Wrappers
  import opened Chars
  import opened Decimal
  import opened Models

  datatype Violation = Violation(field: string, message: string)

  /** `@NotNull` */
  function NotNullViolations<T>(field: string, o: Option<T>, message: string): set<Violation> {
    if o.None? then {Violation(field, message)} else {}
  }

  /** `@Size(min, max)`, measured in UTF-16 code units like `String.length()`.
      An absent `max` is the default `Integer.MAX_VALUE`, which no Java
      string exceeds. */
  function SizeViolations(field: string, o: Option<string>, min: int, max: Option<int>, message: string): set<Violation> {
    var n := if o.Some? then Utf16Length(o.value) else 0;
    if o.Some? && !(min <= n && (max.None? || n <= max.value)) then {Violation(field, message)} else {}
  }

  /** `@Pattern`, given whether the value matches (a null value does). */
  function PatternViolations(field: string, matches: bool, message: string): set<Violation> {
    if matches then {} else {Violation(field, message)}
  }

  // ---------------------------------------------------------------------------
  // Character classes of the patterns

  /** `[A-Za-z\s]` */
  predicate IsUserNameChar(c: char) {
    IsLetter(c) || IsSpace(c)
  }

  /** `[A-Za-z0-9._%+-]` */
  predicate IsEmailLocalChar(c: char) {
    IsLetter(c) || IsDigit(c) || c == '.' || c == '_' || c == '%' || c == '+' || c == '-'
  }

  /** `[A-Za-z0-9.-]` */
  predicate IsEmailDomainChar(c: char) {
    IsLetter(c) || IsDigit(c) || c == '.' || c == '-'
  }

  /** `[!@#$%^&*]` */
  predicate IsPasswordSpecial(c: char) {
    c == '!' || c == '@' || c == '#' || c == '$' || c == '%' || c == '^' || c == '&' || c == '*'
  }

  /** `[A-Za-z\d!@#$%^&*]` */
  predicate IsPasswordChar(c: char) {
    IsLetter(c) || IsDigit(c) || IsPasswordSpecial(c)
  }

  /** `[A-Za-z0-9\s]` */
  predicate IsServiceNameChar(c: char) {
    IsLetter(c) || IsDigit(c) || IsSpace(c)
  }

  /** `[A-Za-z0-9\s,.!?'"-]` */
  predicate IsDescriptionChar(c: char) {
    IsLetter(c) || IsDigit(c) || IsSpace(c)
    || c == ',' || c == '.' || c == '!' || c == '?' || c == '\'' || c == '"' || c == '-'
  }

  /** The characters Java's `.` does not match. */
  predicate IsLineTerminator(c: char) {
    c == '\n' || c == '\r' || c == '\U{0085}' || c == '\U{2028}' || c == '\U{2029}'
  }

  // ---------------------------------------------------------------------------
  // The patterns, read literally

  /** `^[A-Za-z\s]+$` */
  predicate UserNamePattern(s: string) {
    |s| >= 1 && forall k :: 0 <= k < |s| ==> IsUserNameChar(s[k])
  }

  /** One way of reading `s` as `^[A-Za-z0-9._%+-]+@[A-Za-z0-9.-]+\.[A-Z]{2,}$`:
      the '@' at `at` and the escaped '.' at `dot`. */
  predicate EmailSplitAt(s: string, at: int, dot: int) {
    && 1 <= at && at + 2 <= dot && dot + 3 <= |s|
    && (forall k :: 0 <= k < at ==> IsEmailLocalChar(s[k]))
    && s[at] == '@'
    && (forall k :: at < k < dot ==> IsEmailDomainChar(s[k]))
    && s[dot] == '.'
    && (forall k :: dot < k < |s| ==> IsUpper(s[k]))
  }

  /** The email pattern matches iff some reading exists. */
  predicate EmailPattern(s: string) {
    exists at, dot | 0 <= at < |s| && 0 <= dot < |s| :: EmailSplitAt(s, at, dot)
  }

  /** `(?=.*X)` at the start of the input: some character in class X with no
      line terminator before it. */
  predicate LookaheadFinds(s: string, x: char -> bool) {
    exists i :: 0 <= i < |s| && x(s[i]) && forall k :: 0 <= k < i ==> !IsLineTerminator(s[k])
  }

  /** `^(?=.*[a-z])(?=.*[A-Z])(?=.*\d)(?=.*[!@#$%^&*])[A-Za-z\d!@#$%^&*]{8,}$` */
  predicate PasswordPattern(s: string) {
    && LookaheadFinds(s, IsLower)
    && LookaheadFinds(s, IsUpper)
    && LookaheadFinds(s, IsDigit)
    && LookaheadFinds(s, IsPasswordSpecial)
    && |s| >= 8 && forall k :: 0 <= k < |s| ==> IsPasswordChar(s[k])
  }

  /** `^[A-Z]{3}\d{9}$` */
  predicate AccountNumberPattern(s: string) {
    |s| == 12 && (forall k :: 0 <= k < 3 ==> IsUpper(s[k])) && (forall k :: 3 <= k < 12 ==> IsDigit(s[k]))
  }

  /** `^[A-Za-z0-9\s]+$` */
  predicate ServiceNamePattern(s: string) {
    |s| >= 1 && forall k :: 0 <= k < |s| ==> IsServiceNameChar(s[k])
  }

  /** `^[A-Za-z0-9\s,.!?'"-]+$` */
  predicate DescriptionPattern(s: string) {
    |s| >= 1 && forall k :: 0 <= k < |s| ==> IsDescriptionChar(s[k])
  }

  /** `^[1-9]\d*$` */
  predicate DurationDaysPattern(s: string) {
    |s| >= 1 && '1' <= s[0] <= '9' && forall k :: 1 <= k < |s| ==> IsDigit(s[k])
  }

  // ---------------------------------------------------------------------------
  // The rules the patterns amount to

  /** An email address as the pattern accepts it, stated without search: the
      first '@' starts the domain, the last '.' starts the top-level domain. */
  predicate EmailRule(s: string) {
    var at := IndexOf(s, '@');
    var dot := LastIndexOf(s, '.');
    && at >= 1
    && (forall k :: 0 <= k < at ==> IsEmailLocalChar(s[k]))
    && dot >= at + 2
    && (forall k :: at < k < dot ==> IsEmailDomainChar(s[k]))
    && |s| - dot - 1 >= 2
    && (forall k :: dot < k < |s| ==> IsUpper(s[k]))
  }

  /** A reading of the email pattern is forced: its '@' is the only one,
      and its '.' is the last one. */
  lemma EmailSplitIsForced(s: string, a: int, d: int)
    requires EmailSplitAt(s, a, d)
    ensures a == IndexOf(s, '@') && d == LastIndexOf(s, '.')
    ensures forall k :: 0 <= k < |s| && s[k] == '@' ==> k == a
  {
    assert forall k :: 0 <= k < a ==> s[k] != '@' by {
      forall k | 0 <= k < a ensures s[k] != '@' { assert IsEmailLocalChar(s[k]); }
    }
    assert forall k :: a < k < |s| ==> s[k] != '@' by {
      forall k | a < k < |s| ensures s[k] != '@' {
        if k < d { assert IsEmailDomainChar(s[k]); }
        else if k > d { assert IsUpper(s[k]); }
      }
    }
    assert forall k :: d < k < |s| ==> s[k] != '.' by {
      forall k | d < k < |s| ensures s[k] != '.' { assert IsUpper(s[k]); }
    }
  }

  /** The email pattern has exactly one reading when it has one: it is the
      rule above. In particular there is exactly one '@'. */
  lemma EmailPatternIsRule(s: string)
    ensures EmailPattern(s) <==> EmailRule(s)
    ensures EmailPattern(s) ==> forall k :: 0 <= k < |s| && s[k] == '@' ==> k == IndexOf(s, '@')
  {
    if EmailPattern(s) {
      var a, d :| 0 <= a < |s| && 0 <= d < |s| && EmailSplitAt(s, a, d);
      EmailSplitIsForced(s, a, d);
    }
    if EmailRule(s) {
      assert EmailSplitAt(s, IndexOf(s, '@'), LastIndexOf(s, '.'));
    }
  }

  /** A password is valid iff it has at least eight characters, all letters,
      digits or `!@#$%^&*`, among them a lower-case letter, an upper-case
      letter, a digit and a special character. */
  predicate PasswordRule(s: string) {
    && |s| >= 8
    && (forall k :: 0 <= k < |s| ==> IsPasswordChar(s[k]))
    && (exists k :: 0 <= k < |s| && IsLower(s[k]))
    && (exists k :: 0 <= k < |s| && IsUpper(s[k]))
    && (exists k :: 0 <= k < |s| && IsDigit(s[k]))
    && (exists k :: 0 <= k < |s| && IsPasswordSpecial(s[k]))
  }

  /** The look-aheads cannot be stopped by a line terminator, since the main
      class excludes them, so the pattern is the rule. */
  lemma PasswordPatternIsRule(s: string)
    ensures PasswordPattern(s) <==> PasswordRule(s)
  {
    if PasswordRule(s) {
      var l :| 0 <= l < |s| && IsLower(s[l]);
      var u :| 0 <= u < |s| && IsUpper(s[u]);
      var d :| 0 <= d < |s| && IsDigit(s[d]);
      var x :| 0 <= x < |s| && IsPasswordSpecial(s[x]);
      assert forall k :: 0 <= k < |s| ==> !IsLineTerminator(s[k]) by {
        forall k | 0 <= k < |s| ensures !IsLineTerminator(s[k]) {
          assert IsPasswordChar(s[k]);
        }
      }
      assert IsLower(s[l]) && IsUpper(s[u]) && IsDigit(s[d]) && IsPasswordSpecial(s[x]);
    }
  }

  /** The `@Size(min = 8)` on the password adds nothing: the pattern's `{8,}`
      already demands eight characters, so a password with the size message
      always has the pattern message too. */
  lemma PasswordPatternImpliesSize(s: string)
    requires PasswordPattern(s)
    ensures Utf16Length(s) >= 8
  {
    assert forall k :: 0 <= k < |s| ==> s[k] as int < 0x1_0000 by {
      forall k | 0 <= k < |s| ensures s[k] as int < 0x1_0000 {
        assert IsPasswordChar(s[k]);
      }
    }
  }

  /** A lower-case top-level domain is rejected: the pattern's `[A-Z]{2,}`
      has no lower-case letters. */
  lemma LowerCaseTopLevelDomainRejected()
    ensures !EmailPattern("user@example.com")
    ensures EmailPattern("user@example.COM")
  {
    var lower := "user@example.com";
    assert !IsUpper(lower[|lower| - 1]);
    var upper := "user@example.COM";
    assert EmailSplitAt(upper, 4, 12);
  }

  /** A valid `durationDays` is the canonical text of a whole number of at
      least one day. */
  lemma DurationDaysDenotesPositive(s: string)
    requires DurationDaysPattern(s)
    ensures AllDigits(s) && DigitsValue(s) >= 1
    ensures NatToString(DigitsValue(s)) == s
  {
    LeadingNonZeroPositive(s);
    NatToStringOfValue(s);
  }

  // ---------------------------------------------------------------------------
  // UsersModel

  /** The text fields of `UsersModel` hold only characters of the Basic
      Multilingual Plane once their pattern matches, so `@Size` then counts
      characters. */
  lemma BmpLength(s: string, p: char -> bool)
    requires forall k :: 0 <= k < |s| ==> p(s[k])
    requires forall c :: p(c) ==> c as int < 0x80
    ensures Utf16Length(s) == |s|
  {
    assert forall k :: 0 <= k < |s| ==> s[k] as int < 0x1_0000 by {
      forall k | 0 <= k < |s| ensures s[k] as int < 0x1_0000 {
        assert p(s[k]);
      }
    }
  }

  /** `userName`: `@NotNull`, `@Pattern(^[A-Za-z\s]+$)`, `@Size(2, 50)`. */
  function UserNameViolations(o: Option<string>): (v: set<Violation>)
    ensures v == {} <==>
      o.Some? && 2 <= |o.value| <= 50 && forall k :: 0 <= k < |o.value| ==> IsUserNameChar(o.value[k])
    ensures o.None? ==> v == {Violation("userName", "Username cannot be null.")}
  {
    assert o.Some? && UserNamePattern(o.value) ==> Utf16Length(o.value) == |o.value| by {
      if o.Some? && UserNamePattern(o.value) { BmpLength(o.value, IsUserNameChar); }
    }
    NotNullViolations("userName", o, "Username cannot be null.")
    + PatternViolations("userName", o.None? || UserNamePattern(o.value), "Username must contain only letters and spaces.")
    + SizeViolations("userName", o, 2, Some(50), "Username must be between 2 and 50 characters.")
  }

  /** `email`: `@NotNull`, `@Pattern(^[A-Za-z0-9._%+-]+@[A-Za-z0-9.-]+\.[A-Z]{2,}$)`. */
  function EmailViolations(o: Option<string>): (v: set<Violation>)
    ensures v == {} <==> o.Some? && EmailRule(o.value)
    ensures o.None? ==> v == {Violation("email", "Email cannot be null.")}
  {
    assert o.Some? ==> (EmailPattern(o.value) <==> EmailRule(o.value)) by {
      if o.Some? { EmailPatternIsRule(o.value); }
    }
    NotNullViolations("email", o, "Email cannot be null.")
    + PatternViolations("email", o.None? || EmailPattern(o.value), "Email should be in a valid format.")
  }

  const PasswordPatternMessage :=
    "Password must contain at least one uppercase letter, one lowercase letter, one digit, and one special character."

  /** `password`: `@NotNull`, `@Size(min = 8)`, and the look-ahead pattern. */
  function PasswordViolations(o: Option<string>): (v: set<Violation>)
    ensures v == {} <==> o.Some? && PasswordRule(o.value)
    ensures o.None? ==> v == {Violation("password", "Password cannot be null.")}
  {
    PasswordChecks(o);
    NotNullViolations("password", o, "Password cannot be null.")
    + SizeViolations("password", o, 8, None, "Password must be at least 8 characters long.")
    + PatternViolations("password", o.None? || PasswordPattern(o.value), PasswordPatternMessage)
  }

  /** The password's pattern is its rule, and a password that matches it
      also passes the `@Size`. */
  lemma PasswordChecks(o: Option<string>)
    ensures PatternViolations("password", o.None? || PasswordPattern(o.value), PasswordPatternMessage) == {}
      <==> o.None? || PasswordRule(o.value)
    ensures o.Some? && PasswordPattern(o.value) ==>
      SizeViolations("password", o, 8, None, "Password must be at least 8 characters long.") == {}
  {
    if o.Some? {
      PasswordPatternIsRule(o.value);
      if PasswordPattern(o.value) {
        PasswordPatternImpliesSize(o.value);
      }
    }
  }

  /** `accountNumber`: `@NotNull`, `@Pattern(^[A-Z]{3}\d{9}$)`. */
  function AccountNumberViolations(o: Option<string>): (v: set<Violation>)
    ensures v == {} <==>
      && o.Some? && |o.value| == 12
      && (forall k :: 0 <= k < 3 ==> IsUpper(o.value[k]))
      && (forall k :: 3 <= k < 12 ==> IsDigit(o.value[k]))
    ensures o.None? ==> v == {Violation("accountNumber", "Account number cannot be null.")}
  {
    NotNullViolations("accountNumber", o, "Account number cannot be null.")
    + PatternViolations("accountNumber", o.None? || AccountNumberPattern(o.value),
        "Account number must be in the format 'XXX123456789' (3 letters followed by 9 digits).")
  }

  /** The union of the violations of the field constraints declared on
      `UsersModel`, other than the `@Pattern` on the enum-typed `dbstatus`.
      Bean Validation has no `@Pattern` validator for an enum, so validating a
      whole `UsersModel` would stop with `UnexpectedTypeException` before any
      of these were reported; this set is what the field constraints alone
      decide. */
  function UsersModelViolations(m: UsersModel): (v: set<Violation>)
    ensures v == {} <==>
      && UserNameViolations(m.userName) == {}
      && EmailViolations(m.email) == {}
      && PasswordViolations(m.password) == {}
      && AccountNumberViolations(m.accountNumber) == {}
      && m.dbstatus.Some? && m.createdDate.Some? && m.updatedDate.Some?
    ensures m.userName.None? ==> Violation("userName", "Username cannot be null.") in v
    ensures m.email.None? ==> Violation("email", "Email cannot be null.") in v
    ensures m.password.None? ==> Violation("password", "Password cannot be null.") in v
    ensures m.accountNumber.None? ==> Violation("accountNumber", "Account number cannot be null.") in v
    ensures m.dbstatus.None? ==> Violation("dbstatus", "Status cannot be null.") in v
    ensures m.createdDate.None? ==> Violation("createdDate", "Created date cannot be null.") in v
    ensures m.updatedDate.None? ==> Violation("updatedDate", "Updated date cannot be null.") in v
  {
    UserNameViolations(m.userName)
    + EmailViolations(m.email)
    + PasswordViolations(m.password)
    + AccountNumberViolations(m.accountNumber)
    + NotNullViolations("dbstatus", m.dbstatus, "Status cannot be null.")
    + NotNullViolations("createdDate", m.createdDate, "Created date cannot be null.")
    + NotNullViolations("updatedDate", m.updatedDate, "Updated date cannot be null.")
  }

  // ---------------------------------------------------------------------------
  // ServiceModel

  /** `serviceName`: `@NotNull`, `@Size(2, 100)`, `@Pattern(^[A-Za-z0-9\s]+$)`. */
  function ServiceNameViolations(o: Option<string>): (v: set<Violation>)
    ensures v == {} <==>
      o.Some? && 2 <= |o.value| <= 100 && forall k :: 0 <= k < |o.value| ==> IsServiceNameChar(o.value[k])
    ensures o.None? ==> v == {Violation("serviceName", "Service name cannot be null.")}
  {
    ServiceNameLength(o);
    NotNullViolations("serviceName", o, "Service name cannot be null.")
    + SizeViolations("serviceName", o, 2, Some(100), "Service name must be between 2 and 100 characters.")
    + PatternViolations("serviceName", o.None? || ServiceNamePattern(o.value), "Service name must contain only letters, numbers, and spaces.")
  }

  /** A service name that matches its pattern is ASCII, so `@Size` counts
      its characters. */
  lemma ServiceNameLength(o: Option<string>)
    ensures o.Some? && ServiceNamePattern(o.value) ==> Utf16Length(o.value) == |o.value|
  {
    if o.Some? && ServiceNamePattern(o.value) {
      BmpLength(o.value, IsServiceNameChar);
    }
  }

  /** `description`: `@NotNull`, `@Size(10, 500)`, `@Pattern(^[A-Za-z0-9\s,.!?'"-]+$)`. */
  function DescriptionViolations(o: Option<string>): (v: set<Violation>)
    ensures v == {} <==>
      o.Some? && 10 <= |o.value| <= 500 && forall k :: 0 <= k < |o.value| ==> IsDescriptionChar(o.value[k])
    ensures o.None? ==> v == {Violation("description", "Description cannot be null.")}
  {
    DescriptionLength(o);
    NotNullViolations("description", o, "Description cannot be null.")
    + SizeViolations("description", o, 10, Some(500), "Description must be between 10 and 500 characters.")
    + PatternViolations("description", o.None? || DescriptionPattern(o.value),
        "Description can contain letters, numbers, spaces, and common punctuation.")
  }

  /** A description that matches its pattern is ASCII, so `@Size` counts
      its characters. */
  lemma DescriptionLength(o: Option<string>)
    ensures o.Some? && DescriptionPattern(o.value) ==> Utf16Length(o.value) == |o.value|
  {
    if o.Some? && DescriptionPattern(o.value) {
      BmpLength(o.value, IsDescriptionChar);
    }
  }

  /** `durationDays`: `@NotNull`, `@Pattern(^[1-9]\d*$)`; "0" and leading
      zeros are rejected, and an accepted value denotes at least one day. */
  function DurationDaysViolations(o: Option<string>): (v: set<Violation>)
    ensures v == {} <==> o.Some? && AllDigits(o.value) && |o.value| >= 1 && o.value[0] != '0'
    ensures v == {} ==> DigitsValue(o.value) >= 1
    ensures o.None? ==> v == {Violation("durationDays", "Duration days cannot be null.")}
  {
    assert o.Some? && DurationDaysPattern(o.value) ==> DigitsValue(o.value) >= 1 by {
      if o.Some? && DurationDaysPattern(o.value) { DurationDaysDenotesPositive(o.value); }
    }
    NotNullViolations("durationDays", o, "Duration days cannot be null.")
    + PatternViolations("durationDays", o.None? || DurationDaysPattern(o.value), "Duration days must be a positive integer.")
  }

  /** The union of the violations of the field constraints declared on
      `ServiceModel`, other than the `@Pattern` on the enum-typed `dbstatus`.
      Bean Validation has no `@Pattern` validator for an enum, so validating a
      whole `ServiceModel` would stop with `UnexpectedTypeException` before any
      of these were reported; this set is what the field constraints alone
      decide. */
  function ServiceModelViolations(m: ServiceModel): (v: set<Violation>)
    ensures v == {} <==>
      && ServiceNameViolations(m.serviceName) == {}
      && DescriptionViolations(m.description) == {}
      && DurationDaysViolations(m.durationDays) == {}
      && m.dbstatus.Some? && m.createdDate.Some? && m.updatedDate.Some?
    ensures m.serviceName.None? ==> Violation("serviceName", "Service name cannot be null.") in v
    ensures m.description.None? ==> Violation("description", "Description cannot be null.") in v
    ensures m.durationDays.None? ==> Violation("durationDays", "Duration days cannot be null.") in v
    ensures m.dbstatus.None? ==> Violation("dbstatus", "Status cannot be null.") in v
    ensures m.createdDate.None? ==> Violation("createdDate", "Created date cannot be null.") in v
    ensures m.updatedDate.None? ==> Violation("updatedDate", "Updated date cannot be null.") in v
  {
    ServiceNameViolations(m.serviceName)
    + DescriptionViolations(m.description)
    + DurationDaysViolations(m.durationDays)
    + NotNullViolations("dbstatus", m.dbstatus, "Status cannot be null.")
    + NotNullViolations("createdDate", m.createdDate, "Created date cannot be null.")
    + NotNullViolations("updatedDate", m.updatedDate, "Updated date cannot be null.")
  }
}

=== FILE: wrappers.dfy ===
/** Failure-compatible wrappers: a Java reference that may be null is an
    `Option`, and a call that may throw is a `Result`. */
module Wrappers {

  /** A nullable Java reference. */
  datatype Option<+T> = None | Some(value: T)

  /** The outcome of a call that either returns a value or throws. */
  datatype Result<+T, +E> = Ok(value: T) | Err(error: E) {

    predicate IsFailure() {
      Err?
    }

    function PropagateFailure<U>(): Result<U, E>
      requires Err?
    {
      Err(error)
    }

    function Extract(): T
      requires Ok?
    {
      value
    }
  }
}
